=== FILE: README.md ===
# lutris-tui: the paged game grid, in Dafny

lutris-tui is a terminal front end for the Lutris game launcher. This project models its core: the view.

The view:
- lays the installed games out as a grid of 18 games per page, in rows of 3;
- moves a cursor over the grid with the arrow keys (or h/j/k/l) and turns pages when the cursor runs off a page;
- starts or stops the game under the cursor on "enter";
- draws each cell as normal, selected or running, next to a stats pane for the selected game.

The repository holds two revisions of the view package side by side:
- revision A, `view/view.go`, whose grid stores its own `start`/`end` window;
- revision B, `view/model.go` and `view/update.go`, whose grid builder asks the paginator for the window.

Both are modelled, with these modules:

- `Numbers`: ceiling division, the row and page counts.
- `Outcomes`: a Go panic as a value. `Result` is `Ok(value)` or `Panicked(panic)`, and a panic is an index out of range or a nil dereference. Every `cells[y][x]` in the source is therefore an explicit obligation: either a lemma shows the index is in range, or the model panics exactly where Go would.
- `Paginator`: the part of the `bubbles/paginator` library the view uses. The library is not part of this model. Its behaviour is an assumption, written out at the top of `paginator.dfy`:
  - `New()` starts on page 0, with 1 item per page and 1 page;
  - `SetTotalPages(n)` sets ceil(n / perPage) pages and leaves the count alone when n < 1;
  - `GetSliceBounds(n)` is `(page*perPage, min(page*perPage + perPage, n))`;
  - `NextPage` and `PrevPage` stay within the pages.
- `Lutris`: the game record, with whether a successful `Start` has recorded a process handle in it; `Stop`, which clears the running flag and dereferences nil when there is no handle; and the error text of a failed spawn.
- `Grid`: the grid builder `updateGameGrid`. `Chunk`, the chunking of a sequence into rows of `w`, is its independent reference definition. `UpdateGameGrid` is the Go loop statement by statement, and it is proved to compute the chunking of the window.
- `Navigation`: the arrow-key handlers, which both revisions share.
- `View`: revision B, meaning `initialModel`, `updateGameGrid`, `Update` and `runGame`. `runGame` is reduced to the message its command feeds back. `View` also holds an invariant of the states reachable on a non-empty catalog: the grid is the current page's grid, except for running flags and process handles set or cleared on its copies, and the cursor is on a cell. `UpdateOutcome` proves that invariant and states exactly when `Update` panics. On an empty catalog every message but quit panics (`EmptyCatalogPanics`). Lemmas about concrete message sequences (`Run`) exhibit the defects listed under Findings.
- `ViewA`: revision A. It shares the switch of `Update`, and it is proved to agree with revision B everywhere except start-up on a catalog of fewer than 18 games.
- `Components`: what the renderer decides, with styling left out. That is the per-cell state (running wins over selected, which wins over normal), the lines of the stats pane, and which game the pane shows.
- `Repaired`: the view with the defects in Findings corrected:
  - the running flag lives in the catalog;
  - the selection is the cursor's cell, a projection of grid and cursor;
  - a page turn puts the cursor on the first cell of the new page;
  - "enter" on a game whose launch has not yet returned a process handle is ignored.

  Its `Update` cannot panic (the type rules it out) and, on a non-empty catalog, keeps the cursor on a cell.

A page turn should land on a cell of the new page; the natural choice, which `Repaired` makes, is its first cell, (0, 0). The code (view/update.go:33 and :41, view/view.go:138 and :146) resets only the row and keeps the column. `View`, `ViewA` and `Navigation` follow the code. Keeping the column is what makes the "down" panic under Findings possible. Only `Repaired` resets the whole cursor.

Go's value semantics decide what `Update` does with the running flag:
- `updateGameGrid` copies each game into the cells;
- `selectedGame` points into the cells, not into the catalog;
- so "enter" sets the flag on a copy, and the next grid rebuild, after any other event, forgets it;
- the launch command records the process handle in the same copy when `Start` returns (lutris/game.go:40), so "enter" on the flagged cell before that stops the game through a nil handle.

A failed spawn returns an error message and does not clear the flag. The flag disappears anyway, because handling the error message rebuilds the grid from the catalog.

## Model

| member | source | states |
|---|---|---|
| Paginator.SetTotalPages | view/model.go:45 | for a non-empty catalog the page count is the least count whose pages hold every game (ceil(n / 18)); for an empty one it stays as it was; page and page size do not change (assumed library behaviour) |
| Paginator.NextPage | view/update.go:34 | advances one page, except on the last page where it changes nothing; page size and count are kept (assumed library behaviour) |
| Paginator.PrevPage | view/update.go:42 | goes back one page, except on page 0 where it changes nothing; page size and count are kept (assumed library behaviour) |
| Paginator.SetupValid | view/model.go:42-45 | the paginator set up at start-up is valid for the catalog: its page lies among ceil(n / 18) pages, and there is 1 page for an empty catalog |
| Paginator.BoundsInCatalog | view/update.go:76 | the slice bounds of a valid paginator satisfy start <= end <= len(games); the window holds at most one page, exactly one page on every page but the last, and at least one game when the catalog is non-empty |
| Paginator.PagingKeepsValid | view/update.go:32-42 | turning a page forwards or backwards keeps the paginator valid for the same catalog |
| Grid.FlattenChunk | view/view.go:96-108 | the rows built from a slice, read in order, give back exactly that slice |
| Grid.ChunkShaped | view/view.go:96-108 | every row holds 1 to rowCount games, and every row but the last holds exactly rowCount |
| Grid.ChunkCount | view/update.go:78-93 | the grid has ceil((end - start) / rowCount) rows |
| Grid.ChunkUnique | view/update.go:78-93 | rows that are shaped like that and flatten to the slice are exactly the chunking of the slice: the layout is determined by the slice |
| Grid.ChunkCharacterised | view/update.go:78-93 | both directions: rows are the chunking of a slice if and only if they are shaped and flatten to it |
| Grid.ChunkCell | view/update.go:78-93 | cell (y, x) exists if and only if x < rowCount and y*rowCount + x < end - start, and then it holds games[start + y*rowCount + x] |
| Grid.ChunkShapeOfLength | view/update.go:78-93 | the row lengths depend only on the length of the slice, not on the games in it |
| Grid.BuildCells | view/view.go:93-112 | reading games[i] for i in [start, end) panics, at index max(start, len(games)), exactly when the window is non-empty and reaches past the catalog; otherwise the rows flatten to the window, are shaped, and number ceil(len / rowCount) |
| Grid.UpdateGameGrid | view/update.go:78-93 | the nested loop (inner loop breaking at end) computes exactly the reference chunking of the window, and panics exactly where and how the reference says |
| Lutris.Stop | lutris/game.go:45-56 | stopping succeeds if and only if a successful `Start` recorded the process handle, and otherwise dereferences nil (killRecursively reads the handle's fields); on success it clears the running flag and changes nothing else about the entry; revision B calls this `Stop`, because `selectedGame` is a `*lutris.Game` of the lutris package (view/model.go:4, view/model.go:26); revision A calls the wrapper package's `Stop` (wrapper/wrapper.go, lines 87-90, imported at view/view.go:6), which also dereferences the handle and has the same effect on the entry |
| Lutris.Started | lutris/game.go:27-43 | a successful `Start` leaves the entry holding a process handle and changes nothing else about it |
| Lutris.StopNeedsStart | lutris/game.go:40-56 | `Stop` succeeds exactly on an entry that a successful `Start` has already been applied to, and stopping a started entry only clears its running flag |
| Navigation.Down | view/update.go:24-35 | moves to row y+1 if and only if that row exists and has a cell in column x; otherwise off the last page it turns the page and sets y = 0 keeping x, and on the last page changes nothing; x is never changed |
| Navigation.Up | view/update.go:37-43 | y > 0 moves up a row on the same page; at y = 0 off page 0 it goes back a page with y = 0; on page 0 it changes nothing; x is never changed |
| Navigation.Right | view/update.go:45-48 | reading the cursor's row panics if and only if there is no row y; otherwise x grows by one exactly when the row has a cell at x+1, else nothing changes; y and the page never change |
| Navigation.Left | view/update.go:50-53 | x shrinks by one when x > 0, otherwise nothing changes; y and the page never change |
| Navigation.SamePageMoveInBounds | view/update.go:24-53 | on a shaped grid, every arrow-key move that stays on the page keeps the cursor on a cell when it started on one |
| Navigation.KeyOf | view/update.go:20-55 | a key name selects a branch of the switch if and only if that branch lists it among its case labels; no label selects two branches, and a name no branch lists selects the default |
| View.InitialModel | view/model.go:41-59 | start-up: the catalog as given, 18 games a page on page 0, rows of 3, cursor (0, 0), nil selection, empty status bar, and a grid holding exactly the first min(18, n) games in shaped rows |
| View.InitialModelInv | view/model.go:41-59 | on a non-empty catalog the start-up state satisfies the invariant of reachable states, and its grid is exactly page 0's grid |
| View.PagesTileCatalog | view/update.go:76-93 | the pages tile the catalog: reading the grid of every page 0 .. totalPages-1 in turn gives back exactly the catalog, in order, with no game missing or repeated |
| View.PagesUpToPrefix | view/update.go:76-93 | the grids of the first k pages, read in turn, are exactly the first min(18k, n) games |
| View.CursorCellIsCatalogEntry | view/update.go:68 | under the invariant the cursor's cell holds the catalog entry at page*18 + y*3 + x, except perhaps for its running flag |
| View.PageGridFacts | view/update.go:76-93 | the page's grid is shaped and non-empty for a non-empty catalog, and its first row is full off the last page; cell (x, y) exists if and only if x < 3 and y*3 + x is inside the window, and then it is the catalog entry at page*18 + y*3 + x |
| View.UpdateGameGrid | view/update.go:73-94 | rebuilding the grid changes only the cells |
| View.GridReadsInBounds | view/update.go:76-83 | with bounds from a valid paginator, every index the grid builder reads is inside the catalog: the rebuild never panics, and it yields the page grid, whose rows flatten to games[start:end] in ceil((end - start) / 3) rows |
| View.SelectGame | view/update.go:68 | taking the address of cells[y][x] succeeds if and only if the cursor is on a cell, and then the selection is that cell |
| View.Dispatch | view/update.go:13-65 | every branch of the switch that falls through keeps the catalog, row width and page size, and keeps the paginator valid |
| View.Update | view/update.go:12-71 | Update never writes the catalog; the quit keys return the model unchanged with the quit command; an error message sets the status bar and keeps cursor and page; a successful event without a command leaves selectedGame on the cursor's cell |
| View.RebuildOutcome | view/update.go:67-68 | after a fall-through, Update succeeds if and only if the chosen cursor lies in the new page's grid, and then the invariant holds |
| View.ArrowOutcome | view/update.go:37-53 | "up", "left" and "right" never panic under the invariant and keep it |
| View.DownOutcome | view/update.go:24-35 | "down" panics if and only if it turns the page onto a page whose first row has no cell in the cursor's column; otherwise it keeps the invariant |
| View.EnterOutcome | view/update.go:55-63 | "enter" panics, always by a nil dereference, if and only if selectedGame is nil or its cell is flagged without a process handle; otherwise it keeps the invariant |
| View.UpdateOutcome | view/update.go:12-71 | from any state reachable on a non-empty catalog Update keeps the invariant (the page's grid up to running flags and handles, cursor on a cell), and it panics in exactly three cases: "enter" with a nil selectedGame, "enter" on a flagged cell with no process handle, and "down" onto a page whose first row is too short for the cursor's column |
| View.RunKeepsInv | view/update.go:12-71 | every run of events that does not panic ends in a state satisfying the invariant |
| View.FallThroughResult | view/update.go:67-70 | a successful fall-through leaves the grid rebuilt from the catalog for the chosen page, the chosen cursor, and selectedGame on the cursor's cell, with no command |
| View.EnterStopsRunning | view/update.go:58-59 | "enter" on a selected cell whose flag is set succeeds if and only if the cell holds a process handle, and otherwise panics by a nil dereference; on success it clears the flag, rebuilds the grid from the catalog and reselects the cursor's cell, with no command |
| View.EnterLaunches | view/update.go:60-63 | "enter" on a selected cell whose flag is clear sets the flag on that cell only and returns at once with the command that runs that game, without rebuilding the grid |
| View.Enter | view/update.go:55-63 | the "enter" branch panics if and only if selectedGame is nil or its cell is flagged without a handle, always by a nil dereference; it returns at once with the run command for the flagged game if and only if the cell was not flagged, and otherwise falls through with the flag cleared on that cell only |
| View.LaunchLifecycle | view/update.go:96-110 | the game the command runs carries the flag; a failed spawn yields the launcher's error text and leaves the flag set; only the game's exit clears it, leaving the game as stopping it after its `Start` would, and delivers the completion message |
| View.RunGame | view/update.go:96-110 | the command changes only the game's flag and handle; it reports an error if and only if the spawn failed, and then leaves the game as it was; after the game's exit the game holds a handle, is no longer flagged, and the message is the status message 0 |
| View.StartReturned | lutris/game.go:40 | the handle written by a `Start` that returns before the next rebuild lands in the selected cell only, changes nothing else there, and keeps the invariant |
| View.ShortRowBelowOnLastPage | view/update.go:24-35 | under the invariant, a row below that is too short for the cursor's column only occurs on the last page, where "down" changes nothing |
| View.DownFallsThrough | view/update.go:24-35 | "down" where the row below is too short for column x, off the last page, does not stay put: it turns the page with y = 0 and x kept |
| View.FirstEnterPanics | view/update.go:55-58 | "enter" as the first message Update receives after start-up dereferences the nil selectedGame, whatever the catalog |
| View.OtherMessageThenEnterLaunches | view/update.go:67-68 | a message that is not a key (such as the start-up size report) falls through, rebuilds the grid and sets selectedGame to the cursor's cell (0, 0), so "enter" after it launches the first game; a key that moves the cursor first would select another cell |
| View.EmptyCatalogPanics | view/update.go:55-68 | on an empty catalog the start-up grid has no cells; "enter" dereferences the nil selectedGame and every other message but quit panics on row 0 of the empty grid |
| View.ShortLastPagePanics | view/update.go:32-35 | with 19 games, "right", "right" and six "down" panic with index 2 out of range for the one-cell first row of the second page |
| View.LaunchForgotten | view/update.go:55-63 | from start-up, "left", "enter", "left", "enter" issues two run commands for the same game; the "left" after the launch returns the model to its state before the launch |
| View.SecondEnterPanics | view/update.go:58-59 | from start-up, "left", "enter", "enter" panics by a nil dereference: the second "enter" stops a launch that has no process handle yet |
| View.StopAfterStart | view/update.go:58-70 | once the launch's `Start` has returned, the second "enter" stops the game with no command and the rebuild restores the model of before the launch |
| ViewA.UpdateGameGrid | view/view.go:93-112 | the rebuild from the stored window panics if and only if the window is non-empty and reaches past the catalog; otherwise the rows flatten to the window, and only the cells change |
| ViewA.InitialModel | view/view.go:45-65 | revision A's start-up succeeds if and only if the catalog has at least 18 games; otherwise it panics reading games[n]; on success the window is [0, 18) |
| ViewA.InitialAgrees | view/view.go:45-65 | on a catalog of at least 18 games revision A starts in exactly revision B's initial state; on a smaller one it panics |
| ViewA.UpdateAgrees | view/view.go:117-177 | from the same state, revision A's Update panics if and only if revision B's does, reaches the same state and issues the same command; after a rebuild its stored window is the paginator's slice bounds |
| Components.GamesGrid | view/components/components.go:36-66 | the loop gives every cell of the grid, and no other, the state its classification rule assigns |
| Components.ClassificationRules | view/components/components.go:47-53 | a cell is drawn running if and only if its game runs, even under the cursor; it is drawn selected if and only if its game does not run and it is the cursor's cell; at most one cell is selected |
| Components.GameStats | view/components/components.go:68-89 | a heading, then name, platform and runner in that order; a "last played" and a "playtime" line if and only if those strings are non-empty; a "Running" note if and only if the game runs; nothing else |
| Components.DrawMain | view/components/components.go:10-14 | drawing succeeds if and only if the cursor is on a cell; the grid is classified, and the stats pane shows exactly grid[cursorY][cursorX] |
| Repaired.InitialModel | view/model.go:41-59 | corrected start-up: the same configuration, cursor (0, 0) on page 0, no stored selection; the cursor is on a cell whenever the catalog is non-empty |
| Repaired.MoveInBounds | view/update.go:24-43 | corrected arrow keys: every key keeps the paginator valid and the cursor on a cell of the page shown, and a page turn puts the cursor on (0, 0) |
| Repaired.Enter | view/update.go:55-63 | corrected "enter": the page, the cursor and the invariant are kept, and the catalog keeps its length |
| Repaired.Update | view/update.go:12-71 | corrected Update: no event panics, every event keeps the grid equal to the catalog's page grid and, on a non-empty catalog, the cursor on a cell, and the quit keys change nothing |
| Repaired.SelectedIsCatalogEntry | view/update.go:68 | the selection is a projection: the cursor's cell is the catalog entry at page*18 + y*3 + x |
| Repaired.KeysKeepCatalog | view/update.go:21-53 | no key other than "enter" changes the catalog, so a running flag survives all navigation |
| Repaired.EnterToggles | view/update.go:55-63 | corrected "enter" sets the flag of the selected catalog entry when it was clear, clears it when it was set and the launch has returned its handle, and otherwise changes nothing; no other entry changes; the cell on screen shows the entry; it issues a launch if and only if the entry was not running |
| Repaired.CompletionClears | view/update.go:96-110 | corrected completion: whatever the launch comes to, its completion clears that entry's flag and no other; a failed spawn also shows the launcher's error text |
| Repaired.StopThenExitIdempotent | view/update.go:96-110 | stopping a running game whose launch has returned its handle, and then receiving the exit of its process, clears the flag once; the late completion changes nothing |
| Repaired.FirstEnterLaunches | view/model.go:47-58 | in the corrected view, "enter" as the first event launches the first game and sets its flag in the catalog |
| Repaired.EmptyCatalogInert | view/update.go:12-71 | in the corrected view an empty catalog is inert: no event panics or launches anything, and only a failed launch's error text changes the state |
| Repaired.NoRelaunch | view/update.go:58-63 | in the corrected view, "left", "enter", "left", "enter" launches the first game once; the second "enter", which comes before the launch returned a handle, changes nothing |
| Repaired.StopOnceStarted | view/update.go:58-63 | in the corrected view, once the launch has returned its handle, the second "enter" stops the game without launching it again; the catalog entry keeps the handle and loses the flag |

## Left out

- The system calls of launching and killing are left out: `exec.Command`, the process group and SIGKILL, and `Process.Wait` (lutris/game.go, wrapper/wrapper.go). These are operating-system I/O. What remains is their effect on the entry: the running flag, whether a process handle was recorded, and `Stop`'s nil dereference without one. A spawn's result is the `LaunchOutcome` parameter, either a spawn failure with its cause or the exit of the game. The fatal log in `killRecursively` for a handle without its own process group is left out: `Start` always sets one (lutris/game.go:32).
- `runGame` runs as a concurrent bubbletea command, and that concurrency is left out. `View.RunGame` gives the game as the command leaves it and the message it feeds back to `Update`. The command records the handle and later clears the flag through a pointer to a grid cell, from another goroutine. `View.StartReturned` applies the handle to the current grid, which stands for a `Start` that returns before the next rebuild; a write after a rebuild lands on a dropped copy, and the model does not track it, nor the flag cleared at exit.
- Finding the Lutris executable and fetching and decoding the catalog (wrapper/client.go, wrapper/wrapper.go:19-51, main.go) are left out: they shell out and decode JSON. The catalog is a given sequence.
- `View()`, the lipgloss joins and styles, `Game(name, state)`, `KeyValueLine` and the paginator's Arabic display type are left out: they only format text. Components keeps the decisions: the cell states and the stats lines, as data.
- The paginator library's source is not part of this model. Its behaviour is the assumption stated in `paginator.dfy`. For an empty catalog this means 1 page and an empty grid; see the empty-catalog row under Findings.
- `Init`, `Start` and the launcher client field of the model are left out: they carry no logic.
- The game id and year are `uint32` in the source and `nat` here; they are never computed with: the id only names the game in the launch command, and the year is unused.
- The listing never sets a process handle (the field is unexported), but the model's `Game` lets a catalog entry carry one; the lemmas about concrete runs from start-up require the first entry to have none where it matters.
- View.UpdateOutcome: covers only a non-empty catalog, because its invariant needs a cell for the cursor; the empty catalog is covered by View.EmptyCatalogPanics.
- View.Update: states no bound on the cursor by itself. That it keeps the cursor on a cell is stated under the reachable-state invariant by View.UpdateOutcome.
- ViewA.Update: has no contract of its own. Its behaviour is stated through revision B's by ViewA.UpdateAgrees.
- Repaired.Update: events carry a catalog index, not a process handle. A completion from a stopped game that arrives after the game was launched again therefore clears the new launch's flag.

## Findings

| source | as written | input that shows it | evidently intended | confidence | as-written member | corrected member |
|---|---|---|---|---|---|---|
| view/update.go:32-35 | a page turn by "down" sets y = 0 but keeps x, and line 68 then takes the address of cells[0][x] on the new page | 19 games: "right", "right", then "down" six times; the second page has one cell and x = 2, so index 2 is out of range for length 1 | the cursor lands on a cell of the new page; `Repaired` puts it on the first cell | not executed | View.ShortLastPagePanics | Repaired.MoveInBounds |
| view/view.go:58 | revision A's initial window is [0, 18) whatever the size of the catalog, and the grid is built from it at once | any catalog of fewer than 18 games, e.g. 5 games: games[5] is read at start-up | the window is clamped to the catalog, as revision B does by asking the paginator | not executed | ViewA.InitialModel | View.InitialModel |
| view/update.go:58 | `selectedGame` is nil from `initialModel` until the first grid rebuild in `Update`, and "enter" dereferences it | "enter" before any other message reaches `Update`, on any catalog: output that is not a terminal, or a key that beats the terminal size report the runtime sends at start-up (after a message that is not a key, "enter" launches the first game, as View.OtherMessageThenEnterLaunches shows) | the first "enter" acts on the cell under the cursor, the first game | not executed | View.FirstEnterPanics | Repaired.FirstEnterLaunches |
| view/update.go:60-61 | the running flag is set on the grid's copy of the game, and the next rebuild copies the catalog again and forgets it | "left", "enter", "left", "enter" from start-up: the same game is launched twice while the first launch runs | the flag stays set until the game is stopped or exits, so the second "enter" never launches the game again | not executed | View.LaunchForgotten | Repaired.NoRelaunch |
| view/update.go:59 | `Stop` dereferences the process handle (lutris/game.go:46 and :54), which only a successful `Start` records (lutris/game.go:40), and "enter" on a flagged cell calls it without checking | "left", "enter", "enter" from start-up, with the second "enter" handled before the launch's `Start` returns | "enter" stops only a game whose process exists, and ignores a launch still starting | not executed | View.SecondEnterPanics | Repaired.EnterToggles |
| view/update.go:68 | on an empty catalog the paginator keeps 1 page (view/model.go:45), the start-up grid has no cells, and `Update` takes the address of cells[0][0], as the frame does at view/components/components.go:12 | an empty catalog: any message but the quit keys panics ("enter" on the nil selectedGame) | an empty catalog shows an empty grid and ignores the keys | not executed | View.EmptyCatalogPanics | Repaired.EmptyCatalogInert |

=== FILE: components.dfy ===
/**
 * What the renderer decides, with styling left out: the state each grid cell
 * is drawn in, the lines of the stats pane, and which game that pane shows.
 */
module Components {
  import opened Outcomes
  import opened Lutris

  /** `gameState`: how a cell is drawn. */
  datatype GameState = Normal | Selected | Running

  /** One cell: a running game is drawn running even under the cursor; else the cursor's cell is selected. */
  function StateOf(g: Game, i: int, j: int, cursorX: int, cursorY: int): GameState {
    if g.isRunning then Running
    else if cursorX == j && cursorY == i then Selected
    else Normal
  }

  /** `states` has the grid's shape and holds `StateOf` for every cell. */
  predicate ClassifiedBy(states: seq<seq<GameState>>, grid: seq<seq<Game>>, cursorX: int, cursorY: int) {
    && |states| == |grid|
    && (forall i | 0 <= i < |grid| :: |states[i]| == |grid[i]|)
    && (forall i, j | 0 <= i < |grid| && 0 <= j < |grid[i]| ::
          states[i][j] == StateOf(grid[i][j], i, j, cursorX, cursorY))
  }

  /** `GamesGrid`: the nested loop over rows and cells, giving each cell its state. */
  method GamesGrid(grid: seq<seq<Game>>, cursorX: int, cursorY: int) returns (states: seq<seq<GameState>>)
    ensures ClassifiedBy(states, grid, cursorX, cursorY)
  {
    states := [];
    var i := 0;
    while i < |grid|
      invariant 0 <= i <= |grid|
      invariant |states| == i
      invariant forall k | 0 <= k < i :: |states[k]| == |grid[k]|
      invariant forall k, j | 0 <= k < i && 0 <= j < |grid[k]| ::
        states[k][j] == StateOf(grid[k][j], k, j, cursorX, cursorY)
    {
      var row := grid[i];
      var column: seq<GameState> := [];
      var j := 0;
      while j < |row|
        invariant 0 <= j <= |row|
        invariant |column| == j
        invariant forall l | 0 <= l < j :: column[l] == StateOf(row[l], i, l, cursorX, cursorY)
      {
        var game := row[j];
        var state: GameState;
        if game.isRunning {
          state := Running;
        } else if cursorX == j && cursorY == i {
          state := Selected;
        } else {
          state := Normal;
        }
        column := column + [state];
        j := j + 1;
      }
      states := states + [column];
      i := i + 1;
    }
  }

  /**
   * The drawing rules: a cell is drawn running exactly when its game runs
   * (running wins over the cursor), selected exactly when its game does not
   * run and it is the cursor's cell, so at most one cell is selected, and
   * the cursor's cell is selected when its game does not run.
   */
  lemma ClassificationRules(states: seq<seq<GameState>>, grid: seq<seq<Game>>, cursorX: int, cursorY: int)
    requires ClassifiedBy(states, grid, cursorX, cursorY)
    ensures forall i, j | 0 <= i < |grid| && 0 <= j < |grid[i]| ::
      (states[i][j] == Running <==> grid[i][j].isRunning)
    ensures forall i, j | 0 <= i < |grid| && 0 <= j < |grid[i]| ::
      (states[i][j] == Selected <==> !grid[i][j].isRunning && j == cursorX && i == cursorY)
    ensures forall i, j, i', j' |
      0 <= i < |grid| && 0 <= j < |grid[i]| && 0 <= i' < |grid| && 0 <= j' < |grid[i']| &&
      states[i][j] == Selected && states[i'][j'] == Selected :: i == i' && j == j'
  {
    forall i, j, i', j' |
      0 <= i < |grid| && 0 <= j < |grid[i]| && 0 <= i' < |grid| && 0 <= j' < |grid[i']| &&
      states[i][j] == Selected && states[i'][j'] == Selected
      ensures i == i' && j == j'
    {
      assert StateOf(grid[i][j], i, j, cursorX, cursorY) == Selected;
      assert StateOf(grid[i'][j'], i', j', cursorX, cursorY) == Selected;
    }
  }

  /** A line of the stats pane, styling left out. */
  datatype StatLine = Heading(text: string) | KeyValue(key: string, value: string) | Note(text: string)

  /**
   * `GameStats`: a heading, then name, platform and runner always and in
   * that order; then "last played" and "playtime" exactly when those strings
   * are non-empty, and a "Running" note exactly when the game runs.
   */
  function GameStats(g: Game): (r: seq<StatLine>)
    ensures |r| >= 4
    ensures r[..4] == [Heading("Game Stats"), KeyValue("name", g.name), KeyValue("platform", g.platform), KeyValue("runner", g.runner)]
    ensures KeyValue("last played", g.lastPlayed) in r <==> |g.lastPlayed| != 0
    ensures KeyValue("playtime", g.playTime) in r <==> |g.playTime| != 0
    ensures Note("Running") in r <==> g.isRunning
    ensures |r| == 4 + (if |g.lastPlayed| != 0 then 1 else 0) + (if |g.playTime| != 0 then 1 else 0) + (if g.isRunning then 1 else 0)
  {
    var fixed := [Heading("Game Stats"), KeyValue("name", g.name), KeyValue("platform", g.platform), KeyValue("runner", g.runner)];
    var lastPlayed := if |g.lastPlayed| != 0 then [KeyValue("last played", g.lastPlayed)] else [];
    var playTime := if |g.playTime| != 0 then [KeyValue("playtime", g.playTime)] else [];
    var running := if g.isRunning then [Note("Running")] else [];
    var r := fixed + lastPlayed + playTime + running;
    assert r[..4] == fixed;
    assert r[4..] == lastPlayed + playTime + running;
    r
  }

  /** What one frame of the main view shows: the grid's cell states and the stats of one game. */
  datatype Frame = Frame(states: seq<seq<GameState>>, stats: seq<StatLine>)

  /**
   * `Main`: draw the grid, then the stats of `grid[cursorY][cursorX]`, which
   * panics when the cursor is not on a cell.
   */
  method DrawMain(grid: seq<seq<Game>>, cursorX: int, cursorY: int) returns (r: Result<Frame>)
    ensures r.Ok? <==> 0 <= cursorY < |grid| && 0 <= cursorX < |grid[cursorY]|
    ensures r.Ok? ==> ClassifiedBy(r.value.states, grid, cursorX, cursorY)
    ensures r.Ok? ==> r.value.stats == GameStats(grid[cursorY][cursorX])
  {
    var states := GamesGrid(grid, cursorX, cursorY);
    var row := At(grid, cursorY);
    if row.Panicked? {
      return Panicked(row.panic);
    }
    var game := At(row.value, cursorX);
    if game.Panicked? {
      return Panicked(game.panic);
    }
    r := Ok(Frame(states, GameStats(game.value)));
  }
}

=== FILE: grid.dfy ===
/**
 * The grid builder: one page of the catalog chunked, in order, into rows of
 * `rowCount` cells, the last row possibly shorter.
 */
module Grid {
  import opened Numbers
  import opened Outcomes

  /** The rows read left to right, top to bottom. */
  function Flatten<T>(rows: seq<seq<T>>): seq<T> {
    if |rows| == 0 then [] else rows[0] + Flatten(rows[1..])
  }

  /** Reference definition: `s` cut into consecutive rows of `w`, the last one shorter. */
  function Chunk<T>(s: seq<T>, w: nat): seq<seq<T>>
    requires w >= 1
    decreases |s|
  {
    if |s| == 0 then []
    else if |s| <= w then [s]
    else [s[..w]] + Chunk(s[w..], w)
  }

  /** Every row holds 1..w cells, and every row but the last holds exactly w. */
  predicate Shaped<T>(rows: seq<seq<T>>, w: nat) {
    forall i | 0 <= i < |rows| :: 1 <= |rows[i]| <= w && (i + 1 < |rows| ==> |rows[i]| == w)
  }

  /** Two grids with the same number of rows and the same row lengths. */
  predicate SameShape<T>(a: seq<seq<T>>, b: seq<seq<T>>) {
    |a| == |b| && forall i | 0 <= i < |a| :: |a[i]| == |b[i]|
  }

  /** `s[start:end]` when the loop reads anything, empty otherwise. */
  function Window<T>(s: seq<T>, start: nat, end: nat): seq<T>
    requires start >= end || end <= |s|
  {
    if start < end then s[start..end] else []
  }

  lemma {:induction false} FlattenChunk<T>(s: seq<T>, w: nat)
    requires w >= 1
    ensures Flatten(Chunk(s, w)) == s
    decreases |s|
  {
    if |s| > w {
      FlattenChunk(s[w..], w);
      assert s == s[..w] + s[w..];
    }
  }

  lemma {:induction false} ChunkShaped<T>(s: seq<T>, w: nat)
    requires w >= 1
    ensures Shaped(Chunk(s, w), w)
    decreases |s|
  {
    if |s| > w {
      ChunkShaped(s[w..], w);
      var rest := Chunk(s[w..], w);
      assert Chunk(s, w) == [s[..w]] + rest;
      forall i | 0 <= i < |Chunk(s, w)|
        ensures 1 <= |Chunk(s, w)[i]| <= w && (i + 1 < |Chunk(s, w)| ==> |Chunk(s, w)[i]| == w)
      {
        if i > 0 {
          assert Chunk(s, w)[i] == rest[i - 1];
        }
      }
    }
  }

  /** The grid has ceil(|s| / w) rows. */
  lemma {:induction false} ChunkCount<T>(s: seq<T>, w: nat)
    requires w >= 1
    ensures |Chunk(s, w)| == CeilDiv(|s|, w)
    decreases |s|
  {
    if |s| > w {
      ChunkCount(s[w..], w);
      CeilDivStep(|s|, w);
    } else if |s| > 0 {
      CeilDivUnique(|s|, w, 1);
    }
  }

  /** A shaped grid that flattens to `s` is the chunking of `s`: the chunking is unique. */
  lemma {:induction false} ChunkUnique<T>(rows: seq<seq<T>>, s: seq<T>, w: nat)
    requires w >= 1
    requires Shaped(rows, w) && Flatten(rows) == s
    ensures rows == Chunk(s, w)
    decreases |rows|
  {
    if |rows| == 0 {
    } else if |rows| == 1 {
      assert Flatten(rows) == rows[0] + Flatten(rows[1..]);
      assert rows[0] == s;
    } else {
      var tail := rows[1..];
      assert Shaped(tail, w) by {
        forall i | 0 <= i < |tail|
          ensures 1 <= |tail[i]| <= w && (i + 1 < |tail| ==> |tail[i]| == w)
        {
          assert tail[i] == rows[i + 1];
        }
      }
      assert |rows[0]| == w;
      assert 1 <= |tail[0]|;
      assert s == rows[0] + Flatten(tail);
      assert |s| > w;
      assert s[..w] == rows[0];
      assert s[w..] == Flatten(tail);
      ChunkUnique(tail, s[w..], w);
      assert rows == [rows[0]] + tail;
    }
  }

  /** Both directions: the rows are the chunking of `s` exactly when they are shaped and flatten to `s`. */
  lemma ChunkCharacterised<T>(rows: seq<seq<T>>, s: seq<T>, w: nat)
    requires w >= 1
    ensures rows == Chunk(s, w) <==> Shaped(rows, w) && Flatten(rows) == s
  {
    if rows == Chunk(s, w) {
      FlattenChunk(s, w);
      ChunkShaped(s, w);
    }
    if Shaped(rows, w) && Flatten(rows) == s {
      ChunkUnique(rows, s, w);
    }
  }

  /** Cell (y, x) of the chunking exists exactly when x < w and y*w + x < |s|, and it is s[y*w + x]. */
  lemma ChunkCell<T>(s: seq<T>, w: nat, y: nat, x: nat)
    requires w >= 1
    ensures (y < |Chunk(s, w)| && x < |Chunk(s, w)[y]|) <==> (x < w && y * w + x < |s|)
    ensures x < w && y * w + x < |s| ==> y < |Chunk(s, w)| && x < |Chunk(s, w)[y]| && Chunk(s, w)[y][x] == s[y * w + x]
  {
    ChunkCellAt(s, w, y, x, y * w + x);
  }

  /** ChunkCell with the flat index `k` = y*w + x named, so that the induction does no multiplication. */
  lemma {:induction false} ChunkCellAt<T>(s: seq<T>, w: nat, y: nat, x: nat, k: nat)
    requires w >= 1 && k == y * w + x
    ensures (y < |Chunk(s, w)| && x < |Chunk(s, w)[y]|) <==> (x < w && k < |s|)
    ensures x < w && k < |s| ==> y < |Chunk(s, w)| && x < |Chunk(s, w)[y]| && Chunk(s, w)[y][x] == s[k]
    decreases |s|
  {
    var c := Chunk(s, w);
    if y == 0 {
      assert k == x;
      if |s| > w {
        assert c[0] == s[..w];
      }
    } else {
      assert k >= w by { MulMonotone(1, y, w); }
      assert k - w == (y - 1) * w + x;
      if |s| == 0 {
      } else if |s| <= w {
        assert c == [s];
      } else {
        var rest := Chunk(s[w..], w);
        assert c == [s[..w]] + rest;
        ChunkCellAt(s[w..], w, y - 1, x, k - w);
        if y - 1 < |rest| {
          assert c[y] == rest[y - 1];
        }
      }
    }
  }

  /** The shape of a chunking depends only on the length of what is chunked. */
  lemma {:induction false} ChunkShapeOfLength<T>(s: seq<T>, t: seq<T>, w: nat)
    requires w >= 1 && |s| == |t|
    ensures SameShape(Chunk(s, w), Chunk(t, w))
    decreases |s|
  {
    if |s| > w {
      ChunkShapeOfLength(s[w..], t[w..], w);
      var a, b := Chunk(s, w), Chunk(t, w);
      assert a == [s[..w]] + Chunk(s[w..], w);
      assert b == [t[..w]] + Chunk(t[w..], w);
      forall i | 0 <= i < |a|
        ensures |a[i]| == |b[i]|
      {
        if i > 0 {
          assert a[i] == Chunk(s[w..], w)[i - 1];
          assert b[i] == Chunk(t[w..], w)[i - 1];
        }
      }
    }
  }

  /**
   * `updateGameGrid` as a function of its bounds. The source reads `games[i]`
   * for every i in [start, end) with no check: it panics at the first index
   * past the catalog, which is max(start, |games|), exactly when the window is
   * non-empty and reaches past the catalog. Otherwise the rows flatten back to
   * the window, are shaped, and number ceil((end - start) / w).
   */
  function BuildCells<T>(games: seq<T>, start: nat, end: nat, w: nat): (r: Result<seq<seq<T>>>)
    requires w >= 1
    ensures r.Ok? <==> (start >= end || end <= |games|)
    ensures r.Panicked? ==> r.panic == IndexOutOfRange(Max(start, |games|), |games|)
    ensures r.Ok? ==> Flatten(r.value) == Window(games, start, end)
    ensures r.Ok? ==> Shaped(r.value, w)
    ensures r.Ok? ==> |r.value| == CeilDiv(|Window(games, start, end)|, w)
  {
    if start < end && end > |games| then
      Panicked(IndexOutOfRange(Max(start, |games|), |games|))
    else
      var window := Window(games, start, end);
      FlattenChunk(window, w);
      ChunkShaped(window, w);
      ChunkCount(window, w);
      Ok(Chunk(window, w))
  }

  /**
   * The nested loop of `updateGameGrid`, statement by statement: the outer loop
   * walks i from start to end, the inner loop appends up to `rowCount` games to
   * a row and breaks at end. Its result is the function above.
   */
  method UpdateGameGrid<T>(games: seq<T>, start: nat, end: nat, rowCount: nat) returns (r: Result<seq<seq<T>>>)
    requires rowCount >= 1
    ensures r == BuildCells(games, start, end, rowCount)
  {
    var layout: seq<seq<T>> := [];
    var i := start;
    while i < end
      invariant start <= i
      invariant start < end ==> i <= end
      invariant start >= end ==> i == start
      invariant i > start ==> i <= |games|
      invariant i == start ==> layout == []
      invariant start < end <= |games| ==> layout + Chunk(games[i..end], rowCount) == Chunk(games[start..end], rowCount)
      decreases end - i
    {
      var row: seq<T> := [];
      var i0 := i;
      var j := 0;
      while j < rowCount
        invariant 0 <= j <= rowCount
        invariant i0 <= i <= end && i == i0 + j
        invariant i > start ==> i <= |games|
        invariant i <= |games| ==> row == games[i0..i]
        invariant i0 < end
      {
        if i < end {
          if i >= |games| {
            assert i == Max(start, |games|);
            return Panicked(IndexOutOfRange(i, |games|));
          }
          row := row + [games[i]];
          i := i + 1;
        } else {
          break;
        }
        j := j + 1;
      }
      assert i == Min(i0 + rowCount, end);
      if start < end <= |games| {
        var rest := games[i0..end];
        assert rest[..Min(rowCount, |rest|)] == row;
        if |rest| > rowCount {
          assert rest[rowCount..] == games[i..end];
          assert Chunk(rest, rowCount) == [row] + Chunk(games[i..end], rowCount);
        } else {
          assert i == end;
          assert Chunk(rest, rowCount) == [row] + Chunk(games[i..end], rowCount);
        }
        assert (layout + [row]) + Chunk(games[i..end], rowCount) == layout + Chunk(rest, rowCount);
      }
      layout := layout + [row];
    }
    if start < end {
      assert i == end && end <= |games|;
      assert Chunk(games[end..end], rowCount) == [];
      assert layout + [] == layout;
    } else {
      assert Window(games, start, end) == [];
    }
    assert layout == Chunk(Window(games, start, end), rowCount);
    r := Ok(layout);
  }
}

=== FILE: lutris.dfy ===
/** A catalog entry as the launcher lists it, and what starting and stopping it does to the entry. */
module Lutris {
  import opened Outcomes

  /**
   * One installed game. `isRunning` is the flag the view sets and clears;
   * `hasCommand` says whether the unexported `command` field holds the
   * process handle that a successful `Start` records (the listing never sets
   * it, so a catalog entry has none). The process behind the handle is not
   * part of this model.
   */
  datatype Game = Game(
    id: nat,
    slug: string,
    name: string,
    runner: string,
    platform: string,
    year: nat,
    directory: string,
    hidden: bool,
    playTime: string,
    lastPlayed: string,
    isRunning: bool,
    hasCommand: bool)

  /** A successful `Game.Start`: the spawned launcher's handle is recorded in the entry. */
  function Started(g: Game): (r: Game)
    ensures r.hasCommand
    ensures r.(hasCommand := g.hasCommand) == g
  {
    g.(hasCommand := true)
  }

  /**
   * `Game.Stop`: kill the game's process group through the recorded handle,
   * then clear the flag. Revision B reaches the lutris package's copy, whose
   * `killRecursively` reads `command.SysProcAttr`; revision A the wrapper
   * package's, which reads `command.Process`. Both dereference the handle, so
   * both panic on an entry whose `Start` never returned one. The kill itself
   * is left out; what remains is that the flag is cleared and nothing else
   * about the entry changes.
   */
  function Stop(g: Game): (r: Result<Game>)
    ensures r.Ok? <==> g.hasCommand
    ensures r.Panicked? ==> r.panic == NilDereference
    ensures r.Ok? ==> !r.value.isRunning && r.value.(isRunning := g.isRunning) == g
  {
    if g.hasCommand then Ok(g.(isRunning := false)) else Panicked(NilDereference)
  }

  /**
   * Stopping needs a start: an entry can be stopped exactly when it is one
   * that `Start` has returned from, and stopping it then leaves it started
   * and not running.
   */
  lemma StopNeedsStart(g: Game)
    ensures Stop(g).Ok? <==> g == Started(g)
    ensures Stop(Started(g)) == Ok(Started(g).(isRunning := false))
  {
    if g == Started(g) {
      assert g.hasCommand;
    }
  }

  /** What `Game.Start` followed by waiting on the process can come to. */
  datatype LaunchOutcome =
    | SpawnFailed(cause: string)
    | ProcessExited

  /** The error text `Game.Start` returns when the launcher cannot be spawned. */
  function LaunchErrorText(cause: string): string {
    "lutris command failed, error: '" + cause + "'"
  }
}

=== FILE: navigation.dfy ===
/**
 * The key handlers of `Update` that move the cursor and turn pages. They are
 * the same in both revisions of the view. Rows have different lengths, so
 * left/right are checked against the cursor's own row.
 */
module Navigation {
  import opened Outcomes
  import opened Paginator
  import opened Grid

  /** `CursorPosition`: column x within row y of the visible grid. */
  datatype Cursor = Cursor(x: nat, y: nat)

  /** The part of the grid state that the arrow keys change. */
  datatype Nav = Nav(cursor: Cursor, pager: Pager)

  datatype Key = QuitKey | DownKey | UpKey | RightKey | LeftKey | EnterKey | OtherKey

  /** The case labels of each branch of the key switch; the default branch has none. */
  function Labels(k: Key): set<string> {
    match k
    case QuitKey => {"ctrl+c", "q"}
    case DownKey => {"down", "j"}
    case UpKey => {"up", "k"}
    case RightKey => {"right", "l"}
    case LeftKey => {"left", "h"}
    case EnterKey => {"enter"}
    case OtherKey => {}
  }

  /**
   * The `msg.String()` switch: a key name selects the one branch that lists
   * it (no label is listed twice, so the order of the cases does not matter),
   * and the default branch when no branch does.
   */
  function KeyOf(name: string): (k: Key)
    ensures forall b: Key :: name in Labels(b) <==> b != OtherKey && b == k
  {
    if name == "ctrl+c" || name == "q" then QuitKey
    else if name == "down" || name == "j" then DownKey
    else if name == "up" || name == "k" then UpKey
    else if name == "right" || name == "l" then RightKey
    else if name == "left" || name == "h" then LeftKey
    else if name == "enter" then EnterKey
    else OtherKey
  }

  /** `cells[c.y][c.x]` exists. */
  predicate InBounds<T>(cells: seq<seq<T>>, c: Cursor) {
    c.y < |cells| && c.x < |cells[c.y]|
  }

  /** There is a row below the cursor, and it has a cell in the cursor's column. */
  predicate CanMoveDown<T>(cells: seq<seq<T>>, c: Cursor) {
    c.y + 1 < |cells| && c.x < |cells[c.y + 1]|
  }

  /**
   * "down"/"j": step to the row below when it has a cell in this column;
   * otherwise turn to the next page with y = 0 (x is kept), unless this is
   * the last page, where nothing happens.
   */
  function Down<T>(cells: seq<seq<T>>, n: Nav): (r: Nav)
    ensures r.cursor.x == n.cursor.x
    ensures r.cursor.y == n.cursor.y + 1 <==> CanMoveDown(cells, n.cursor)
    ensures CanMoveDown(cells, n.cursor) ==> r.pager == n.pager
    ensures !CanMoveDown(cells, n.cursor) && OnLastPage(n.pager) ==> r == n
    ensures !CanMoveDown(cells, n.cursor) && !OnLastPage(n.pager) ==>
      r.cursor.y == 0 && r.pager == n.pager.(page := n.pager.page + 1)
  {
    if CanMoveDown(cells, n.cursor) then
      n.(cursor := n.cursor.(y := n.cursor.y + 1))
    else if !OnLastPage(n.pager) then
      Nav(n.cursor.(y := 0), NextPage(n.pager))
    else
      n
  }

  /**
   * "up"/"k": step to the row above when there is one; otherwise go back a
   * page with y = 0 (x is kept), unless this is the first page.
   */
  function Up(n: Nav): (r: Nav)
    ensures r.cursor.x == n.cursor.x
    ensures n.cursor.y > 0 ==> r.cursor.y == n.cursor.y - 1 && r.pager == n.pager
    ensures n.cursor.y == 0 && n.pager.page > 0 ==>
      r.cursor.y == 0 && r.pager == n.pager.(page := n.pager.page - 1)
    ensures n.cursor.y == 0 && n.pager.page == 0 ==> r == n
  {
    if n.cursor.y > 0 then
      n.(cursor := n.cursor.(y := n.cursor.y - 1))
    else if n.pager.page != 0 then
      Nav(n.cursor.(y := 0), PrevPage(n.pager))
    else
      n
  }

  /**
   * "right"/"l": one column right when the cursor's row has a cell there,
   * else nothing; the row and the page never change. Reading the length of
   * row y panics when there is no row y.
   */
  function Right<T>(cells: seq<seq<T>>, n: Nav): (r: Result<Nav>)
    ensures r.Ok? <==> n.cursor.y < |cells|
    ensures r.Panicked? ==> r.panic == IndexOutOfRange(n.cursor.y, |cells|)
    ensures r.Ok? ==> r.value.pager == n.pager && r.value.cursor.y == n.cursor.y
    ensures r.Ok? ==> (r.value.cursor.x == n.cursor.x + 1 <==> n.cursor.x + 1 < |cells[n.cursor.y]|)
    ensures r.Ok? && n.cursor.x + 1 >= |cells[n.cursor.y]| ==> r.value == n
  {
    var row :- At(cells, n.cursor.y);
    if n.cursor.x < |row| - 1 then
      Ok(n.(cursor := n.cursor.(x := n.cursor.x + 1)))
    else
      Ok(n)
  }

  /** "left"/"h": one column left unless already in column 0; nothing else changes. */
  function Left(n: Nav): (r: Nav)
    ensures r.pager == n.pager && r.cursor.y == n.cursor.y
    ensures n.cursor.x > 0 ==> r.cursor.x == n.cursor.x - 1
    ensures n.cursor.x == 0 ==> r == n
  {
    if n.cursor.x > 0 then n.(cursor := n.cursor.(x := n.cursor.x - 1)) else n
  }

  /**
   * Every move that stays on the page keeps a valid cursor valid: the row
   * above a valid cursor is a full row, and the row below and the row itself
   * are checked before moving.
   */
  lemma SamePageMoveInBounds<T>(cells: seq<seq<T>>, w: nat, n: Nav, r: Nav)
    requires Shaped(cells, w) && InBounds(cells, n.cursor)
    requires r == Down(cells, n) || r == Up(n) || r == Left(n) || Right(cells, n) == Ok(r)
    requires r.pager == n.pager
    ensures InBounds(cells, r.cursor)
  {
    if r == Up(n) && n.cursor.y > 0 {
      assert |cells[n.cursor.y - 1]| == w;
    }
  }
}

=== FILE: numbers.dfy ===
/** Small integer helpers shared by the paginator and the grid. */
module Numbers {

  function Min(a: int, b: int): int {
    if a <= b then a else b
  }

  function Max(a: int, b: int): int {
    if a >= b then a else b
  }

  /** The ceiling of `a / b`: the number of groups of at most `b` needed to hold `a` items. */
  function CeilDiv(a: nat, b: nat): (q: nat)
    requires b >= 1
    ensures q * b >= a
    ensures a > 0 ==> q >= 1 && (q - 1) * b < a
    ensures a == 0 ==> q == 0
  {
    var d := a / b;
    var m := a % b;
    assert a == d * b + m;
    if m > 0 then
      assert (d + 1) * b == d * b + b;
      d + 1
    else
      d
  }

  lemma MulMonotone(a: nat, c: nat, b: nat)
    requires a <= c
    ensures a * b <= c * b
  {
  }

  /** The group count of a positive `a` is the only q with (q - 1) * b < a <= q * b. */
  lemma CeilDivUnique(a: nat, b: nat, q: nat)
    requires b >= 1 && a > 0 && q >= 1
    requires (q - 1) * b < a <= q * b
    ensures q == CeilDiv(a, b)
  {
    var p := CeilDiv(a, b);
    if q < p {
      MulMonotone(q, p - 1, b);
    } else if p < q {
      MulMonotone(p, q - 1, b);
    }
  }

  /** One more full group of `b` items needs exactly one more group. */
  lemma CeilDivStep(a: nat, b: nat)
    requires b >= 1 && a > b
    ensures CeilDiv(a, b) == CeilDiv(a - b, b) + 1
  {
    var q' := CeilDiv(a - b, b);
    assert (q' + 1) * b == q' * b + b;
    assert (q' - 1) * b + b == q' * b;
    CeilDivUnique(a, b, q' + 1);
  }
}

=== FILE: outcomes.dfy ===
/**
 * Go run-time panics as values. The view code indexes slices and dereferences
 * a pointer without checks; each such site becomes a `Result` here, so that the
 * model is total and "this never panics" is something to prove.
 */
module Outcomes {

  /** Why a Go run-time panic occurred. */
  datatype Panic =
    | IndexOutOfRange(index: int, length: int)
    | NilDereference

  datatype Result<+T> = Ok(value: T) | Panicked(panic: Panic) {

    predicate IsFailure() {
      Panicked?
    }

    function PropagateFailure<U>(): Result<U>
      requires Panicked?
    {
      Panicked(panic)
    }

    function Extract(): T
      requires Ok?
    {
      value
    }
  }

  /** Go's `s[i]`: the element, or an index-out-of-range panic. */
  function At<T>(s: seq<T>, i: int): Result<T> {
    if 0 <= i < |s| then Ok(s[i]) else Panicked(IndexOutOfRange(i, |s|))
  }
}

=== FILE: paginator.dfy ===
/**
 * The slice of the `bubbles/paginator` library that the view uses. The library
 * is not part of this model; its behaviour is ASSUMED as follows:
 *   - a fresh paginator is on page 0 with one item per page and one page;
 *   - `SetTotalPages(n)` sets the page count to ceil(n / perPage), and leaves it
 *     alone when n < 1;
 *   - `GetSliceBounds(n)` is (page * perPage, min(page * perPage + perPage, n));
 *   - `OnLastPage` is page == totalPages - 1;
 *   - `NextPage` / `PrevPage` step the page by one and never leave [0, totalPages).
 */
module Paginator {
  import opened Numbers

  datatype Pager = Pager(page: nat, perPage: nat, totalPages: nat)

  /** `paginator.New()`. */
  function New(): Pager {
    Pager(0, 1, 1)
  }

  /** `SetTotalPages(items)`: enough pages of `perPage` items to hold `items`. */
  function SetTotalPages(p: Pager, items: int): (r: Pager)
    requires p.perPage >= 1
    ensures r.page == p.page && r.perPage == p.perPage
    ensures items < 1 ==> r.totalPages == p.totalPages
    ensures items >= 1 ==> r.totalPages >= 1
    ensures items >= 1 ==> (r.totalPages - 1) * r.perPage < items <= r.totalPages * r.perPage
  {
    if items < 1 then p else p.(totalPages := CeilDiv(items, p.perPage))
  }

  /** `GetSliceBounds(length)`: the half-open window of the current page. */
  function SliceBounds(p: Pager, length: nat): (nat, nat) {
    var start := p.page * p.perPage;
    (start, Min(start + p.perPage, length))
  }

  predicate OnLastPage(p: Pager) {
    p.page == p.totalPages - 1
  }

  /** `NextPage()`: advance unless already on the last page. */
  function NextPage(p: Pager): (r: Pager)
    ensures r.perPage == p.perPage && r.totalPages == p.totalPages
    ensures OnLastPage(p) ==> r == p
    ensures !OnLastPage(p) ==> r.page == p.page + 1
  {
    if OnLastPage(p) then p else p.(page := p.page + 1)
  }

  /** `PrevPage()`: go back unless already on the first page. */
  function PrevPage(p: Pager): (r: Pager)
    ensures r.perPage == p.perPage && r.totalPages == p.totalPages
    ensures p.page == 0 ==> r == p
    ensures p.page > 0 ==> r.page == p.page - 1
  {
    if p.page > 0 then p.(page := p.page - 1) else p
  }

  /**
   * A paginator whose page count was set from a catalog of `n` items and
   * whose current page is one of those pages.
   */
  predicate Valid(p: Pager, n: nat) {
    && p.perPage >= 1
    && p.totalPages >= 1
    && p.page < p.totalPages
    && (n < 1 ==> p.totalPages == 1)
    && (n >= 1 ==> (p.totalPages - 1) * p.perPage < n <= p.totalPages * p.perPage)
  }

  /** A fresh paginator with `perPage` items per page, counted over `n` items, is valid. */
  lemma SetupValid(perPage: nat, n: nat)
    requires perPage >= 1
    ensures Valid(SetTotalPages(New().(perPage := perPage), n), n)
  {
  }

  /**
   * The slice bounds of a valid paginator lie inside the catalog, the window
   * holds at most one page of items, exactly one page before the last page,
   * and is non-empty whenever the catalog is.
   */
  lemma BoundsInCatalog(p: Pager, n: nat)
    requires Valid(p, n)
    ensures SliceBounds(p, n).0 <= SliceBounds(p, n).1 <= n
    ensures SliceBounds(p, n).1 - SliceBounds(p, n).0 <= p.perPage
    ensures !OnLastPage(p) ==> SliceBounds(p, n).1 - SliceBounds(p, n).0 == p.perPage
    ensures n >= 1 ==> SliceBounds(p, n).0 < SliceBounds(p, n).1
  {
    if n >= 1 {
      MulMonotone(p.page, p.totalPages - 1, p.perPage);
      if !OnLastPage(p) {
        MulMonotone(p.page + 1, p.totalPages - 1, p.perPage);
      }
    }
  }

  /** Paging forwards or backwards keeps a paginator valid. */
  lemma PagingKeepsValid(p: Pager, n: nat)
    requires Valid(p, n)
    ensures Valid(NextPage(p), n) && Valid(PrevPage(p), n)
  {
  }
}

=== FILE: repaired.dfy ===
/**
 * The view with the defects of the source corrected:
 *   - the running flag lives in the catalog, the one place it is written,
 *     and the grid is always rebuilt from it, so it is never forgotten;
 *   - the selection is the cursor's cell, a projection of grid and cursor,
 *     so there is no pointer to be nil;
 *   - a page turn puts the cursor on the first cell of the new page, so the
 *     cursor is always on a cell;
 *   - a failed launch clears the flag it set;
 *   - "enter" on a game whose launch has not yet returned from `Start` is
 *     ignored, instead of stopping it through a nil process handle.
 * Everything else is the source's behaviour: the same paginator, page size,
 * row width and arrow-key moves.
 */
module Repaired {
  import opened Paginator
  import opened Lutris
  import opened Grid
  import opened Navigation
  import View

  datatype Model = Model(games: seq<Game>, cells: seq<seq<Game>>, cursor: Cursor, pager: Pager, statusBar: string)

  /**
   * A key, or news from the launch of catalog entry `index`: its `Start`
   * returned a handle, its spawn failed, or its process exited.
   */
  datatype Event = Key(name: string) | Started(index: nat) | LaunchFailed(index: nat, err: string) | Exited(index: nat)

  datatype Cmd = NoCmd | QuitCmd | Launch(index: nat)

  /** The cells are the page grid of the catalog, and on a non-empty catalog the cursor is on one of them. */
  predicate Inv(m: Model) {
    && m.pager.perPage == View.GamesPerPage
    && Valid(m.pager, |m.games|)
    && m.cells == View.PageGrid(m.games, m.pager)
    && (|m.games| >= 1 ==> InBounds(m.cells, m.cursor))
  }

  /** The catalog position of the selected cell. */
  function SelectedIndex(m: Model): nat {
    View.CatalogIndex(m.pager, m.cursor)
  }

  function Refresh(m: Model): Model
    requires m.pager.perPage == View.GamesPerPage && Valid(m.pager, |m.games|)
  {
    m.(cells := View.PageGrid(m.games, m.pager))
  }

  /** Clear the flag of catalog entry `i`, if there is one. */
  function Clear(games: seq<Game>, i: nat): seq<Game> {
    if i < |games| then games[i := games[i].(isRunning := false)] else games
  }

  /** Record the process handle in catalog entry `i`, if there is one. */
  function Record(games: seq<Game>, i: nat): seq<Game> {
    if i < |games| then games[i := Lutris.Started(games[i])] else games
  }

  /** Start-up: revision B's initial state, without a stored selection. */
  function InitialModel(games: seq<Game>): (m: Model)
    ensures Inv(m)
    ensures m.games == games && m.cursor == Cursor(0, 0) && m.pager.page == 0 && m.statusBar == ""
  {
    var p := SetTotalPages(New().(perPage := View.GamesPerPage), |games|);
    SetupValid(View.GamesPerPage, |games|);
    BoundsInCatalog(p, |games|);
    View.PageGridFacts(games, p, Cursor(0, 0));
    Model(games, View.PageGrid(games, p), Cursor(0, 0), p, "")
  }

  /** The arrow keys of the source, except that a page turn also resets x. */
  function Move(m: Model, key: Key): Nav
    requires key in {DownKey, UpKey, RightKey, LeftKey}
  {
    var n := Nav(m.cursor, m.pager);
    var moved :=
      if key == DownKey then Down(m.cells, n)
      else if key == UpKey then Up(n)
      else if key == RightKey then (if m.cursor.y < |m.cells| then Right(m.cells, n).value else n)
      else Left(n);
    if moved.pager != n.pager then Nav(Cursor(0, 0), moved.pager) else moved
  }

  /**
   * Every arrow key leaves the cursor on a cell of the page it shows: moves
   * on the page are checked against the row lengths, and a page turn lands
   * on the first cell, which every page of a non-empty catalog has.
   */
  lemma MoveInBounds(m: Model, key: Key)
    requires Inv(m) && key in {DownKey, UpKey, RightKey, LeftKey}
    ensures Valid(Move(m, key).pager, |m.games|) && Move(m, key).pager.perPage == View.GamesPerPage
    ensures |m.games| >= 1 ==> InBounds(View.PageGrid(m.games, Move(m, key).pager), Move(m, key).cursor)
    ensures Move(m, key).pager != m.pager ==> Move(m, key).cursor == Cursor(0, 0)
  {
    var n := Nav(m.cursor, m.pager);
    var r := Move(m, key);
    PagingKeepsValid(m.pager, |m.games|);
    View.PageGridFacts(m.games, m.pager, m.cursor);
    if |m.games| >= 1 {
      if r.pager == m.pager {
        SamePageMoveInBounds(m.cells, View.RowCount, n, r);
      } else {
        BoundsInCatalog(r.pager, |m.games|);
        View.PageGridFacts(m.games, r.pager, Cursor(0, 0));
      }
    }
  }

  /** Rebuilding after the catalog changed only in flags keeps the cursor on a cell. */
  lemma FlagsKeepShape(m: Model, games': seq<Game>)
    requires Inv(m) && |games'| == |m.games|
    ensures Inv(Refresh(m.(games := games')))
  {
    var p := m.pager;
    BoundsInCatalog(p, |m.games|);
    var (s, e) := SliceBounds(p, |m.games|);
    ChunkShapeOfLength(m.games[s..e], games'[s..e], View.RowCount);
    if |m.games| >= 1 {
      View.ShapeCarriesBounds(m.cells, View.PageGrid(games', p), m.cursor);
    }
  }

  /**
   * "enter" toggles the flag of the selected catalog entry, and only that:
   * a running game whose launch has returned its handle is stopped, a game
   * still starting is left alone, any other is flagged and launched.
   */
  function Enter(m: Model): (r: (Model, Cmd))
    requires Inv(m)
    ensures Inv(r.0) && |r.0.games| == |m.games|
    ensures r.0.cursor == m.cursor && r.0.pager == m.pager
  {
    if |m.games| == 0 then (m, NoCmd)
    else
      var i := SelectedIndex(m);
      View.PageGridFacts(m.games, m.pager, m.cursor);
      var g := m.games[i];
      if g.isRunning && !g.hasCommand then (m, NoCmd)
      else
        var games' := m.games[i := if g.isRunning then Stop(g).value else g.(isRunning := true)];
        FlagsKeepShape(m, games');
        (Refresh(m.(games := games')), if g.isRunning then NoCmd else Launch(i))
  }

  /**
   * One event. No event panics (the result is not a `Result`), the invariant
   * holds after every event, and the catalog keeps its length; the quit keys
   * change nothing.
   */
  function Update(m: Model, e: Event): (r: (Model, Cmd))
    requires Inv(m)
    ensures Inv(r.0)
    ensures |r.0.games| == |m.games|
    ensures e.Key? && KeyOf(e.name) == QuitKey ==> r == (m, QuitCmd)
  {
    match e
    case Key(name) =>
      var key := KeyOf(name);
      if key == QuitKey then (m, QuitCmd)
      else if key == EnterKey then Enter(m)
      else if key == OtherKey then (m, NoCmd)
      else
        var n := Move(m, key);
        MoveInBounds(m, key);
        (Refresh(m.(cursor := n.cursor, pager := n.pager)), NoCmd)
    case Started(i) =>
      FlagsKeepShape(m, Record(m.games, i));
      (Refresh(m.(games := Record(m.games, i))), NoCmd)
    case LaunchFailed(i, err) =>
      FlagsKeepShape(m, Clear(m.games, i));
      (Refresh(m.(games := Clear(m.games, i), statusBar := err)), NoCmd)
    case Exited(i) =>
      FlagsKeepShape(m, Clear(m.games, i));
      (Refresh(m.(games := Clear(m.games, i))), NoCmd)
  }

  /**
   * The event the launch command of entry `i` feeds back when the launch
   * ends (a successful spawn has fed back `Started(i)` before).
   */
  function Completion(i: nat, outcome: LaunchOutcome): Event {
    match outcome
    case SpawnFailed(cause) => LaunchFailed(i, LaunchErrorText(cause))
    case ProcessExited => Exited(i)
  }

  /** The selection is a projection: the cursor's cell is the catalog entry at `SelectedIndex`. */
  lemma SelectedIsCatalogEntry(m: Model)
    requires Inv(m) && |m.games| >= 1
    ensures SelectedIndex(m) < |m.games|
    ensures m.cells[m.cursor.y][m.cursor.x] == m.games[SelectedIndex(m)]
  {
    View.PageGridFacts(m.games, m.pager, m.cursor);
  }

  /** Keys other than "enter" never touch the catalog, so a running flag survives all navigation. */
  lemma KeysKeepCatalog(m: Model, name: string)
    requires Inv(m) && KeyOf(name) != EnterKey
    ensures Update(m, Key(name)).0.games == m.games
  {
  }

  /**
   * "enter" flips the flag of the selected entry and nothing else in the
   * catalog, unless its launch has not yet returned a handle, when nothing
   * changes; the cell on screen shows the entry; it launches exactly when
   * the entry was not running.
   */
  lemma EnterToggles(m: Model, name: string)
    requires Inv(m) && |m.games| >= 1 && KeyOf(name) == EnterKey
    ensures var i := SelectedIndex(m);
      var (m', cmd) := Update(m, Key(name));
      && i < |m.games|
      && |m'.games| == |m.games|
      && m'.cells[m'.cursor.y][m'.cursor.x] == m'.games[i]
      && (cmd == Launch(i) <==> !m.games[i].isRunning)
      && (cmd == NoCmd <==> m.games[i].isRunning)
      && (!m.games[i].isRunning ==> m'.games == m.games[i := m.games[i].(isRunning := true)])
      && (m.games[i].isRunning && m.games[i].hasCommand ==> m'.games == m.games[i := m.games[i].(isRunning := false)])
      && (m.games[i].isRunning && !m.games[i].hasCommand ==> m' == m)
  {
    SelectedIsCatalogEntry(m);
    SelectedIsCatalogEntry(Update(m, Key(name)).0);
  }

  /**
   * Whatever the launch of entry i comes to, its completion event clears the
   * flag of i and nothing else; a failed spawn also shows the launcher's
   * error text.
   */
  lemma CompletionClears(m: Model, i: nat, outcome: LaunchOutcome)
    requires Inv(m) && i < |m.games|
    ensures var m' := Update(m, Completion(i, outcome)).0;
      && !m'.games[i].isRunning
      && (forall k | 0 <= k < |m.games| && k != i :: m'.games[k] == m.games[k])
      && (outcome.SpawnFailed? ==> m'.statusBar == LaunchErrorText(outcome.cause))
  {
  }

  /**
   * Stopping a game and then receiving the exit of its process flips the
   * flag once: the late completion finds the flag already clear and changes
   * nothing.
   */
  lemma StopThenExitIdempotent(m: Model, name: string)
    requires Inv(m) && |m.games| >= 1 && KeyOf(name) == EnterKey
    requires SelectedIndex(m) < |m.games| && m.games[SelectedIndex(m)].isRunning && m.games[SelectedIndex(m)].hasCommand
    ensures var i := SelectedIndex(m);
      var m1 := Update(m, Key(name)).0;
      && !m1.games[i].isRunning
      && Update(m1, Exited(i)).0 == m1
  {
    var i := SelectedIndex(m);
    EnterToggles(m, name);
    var m1 := Update(m, Key(name)).0;
    assert m1.games[i := m1.games[i].(isRunning := false)] == m1.games;
  }

  /**
   * On an empty catalog nothing panics and nothing is launched: every event
   * leaves the start-up state as it was, except that a failed launch still
   * shows its error text.
   */
  lemma EmptyCatalogInert(e: Event)
    ensures var m := InitialModel([]);
      && Update(m, e).0.(statusBar := m.statusBar) == m
      && !Update(m, e).1.Launch?
  {
  }

  /** The event loop, stopping after a quit command. */
  datatype Trace = Trace(model: Model, cmds: seq<Cmd>)

  function Run(m: Model, events: seq<Event>): (r: Trace)
    requires Inv(m)
    ensures Inv(r.model) && |r.model.games| == |m.games|
    decreases |events|
  {
    if |events| == 0 then Trace(m, [])
    else
      var (m1, cmd) := Update(m, events[0]);
      if cmd == QuitCmd then Trace(m1, [QuitCmd])
      else
        var rest := Run(m1, events[1..]);
        Trace(rest.model, [cmd] + rest.cmds)
  }

  /** The first "enter" after start-up launches the first game instead of dereferencing nothing. */
  lemma FirstEnterLaunches(games: seq<Game>)
    requires |games| >= 1 && !games[0].isRunning
    ensures Run(InitialModel(games), [Key("enter")]).cmds == [Launch(0)]
    ensures Run(InitialModel(games), [Key("enter")]).model.games == games[0 := games[0].(isRunning := true)]
  {
    var m0 := InitialModel(games);
    assert SelectedIndex(m0) == 0;
    EnterToggles(m0, "enter");
  }

  /**
   * The run that launched the first game twice in the source: here "left",
   * "enter", "left", "enter" launches it once, and the second "enter", which
   * comes while the launch has not yet returned a handle, is ignored.
   */
  lemma NoRelaunch(games: seq<Game>)
    requires |games| >= 1 && !games[0].isRunning && !games[0].hasCommand
    ensures var t := Run(InitialModel(games), [Key("left"), Key("enter"), Key("left"), Key("enter")]);
      t.cmds == [NoCmd, Launch(0), NoCmd, NoCmd] && t.model.games == games[0 := games[0].(isRunning := true)]
  {
    var left, enter := Key("left"), Key("enter");
    var m0 := InitialModel(games);
    var m1 := Update(m0, left).0;
    assert m1 == m0;
    assert SelectedIndex(m0) == 0;
    EnterToggles(m0, "enter");
    var m2 := Update(m0, enter).0;
    assert m2.games == games[0 := games[0].(isRunning := true)];
    assert Update(m2, left) == (m2, NoCmd);
    assert SelectedIndex(m2) == 0;
    EnterToggles(m2, "enter");
    assert Update(m2, enter) == (m2, NoCmd);
    RunStep(m2, enter, []);
    RunStep(m2, left, [enter] + []);
    RunStep(m0, enter, [left] + ([enter] + []));
    RunStep(m0, left, [enter] + ([left] + ([enter] + [])));
    View.ConsLiterals(left, enter, left, enter);
    View.ConsLiterals(NoCmd, Launch(0), NoCmd, NoCmd);
  }

  /**
   * Once the launch has returned its handle, the second "enter" stops the
   * game: the catalog keeps the handle and loses the flag, and nothing is
   * launched again.
   */
  lemma StopOnceStarted(games: seq<Game>)
    requires |games| >= 1 && !games[0].isRunning
    ensures var t := Run(InitialModel(games), [Key("left"), Key("enter"), Started(0), Key("left"), Key("enter")]);
      t.cmds == [NoCmd, Launch(0), NoCmd, NoCmd, NoCmd] && t.model.games == games[0 := Lutris.Started(games[0])]
  {
    var left, enter, started := Key("left"), Key("enter"), Started(0);
    var m0 := InitialModel(games);
    var m2 := Update(m0, enter).0;
    var m3 := Update(m2, started).0;
    var m5 := Update(m3, enter).0;
    LaunchThenStart(games);
    RunCarries(m3, enter, [], m5, NoCmd, Trace(m5, []));
    RunCarries(m3, left, [enter] + [], m3, NoCmd, Trace(m5, [NoCmd] + []));
    RunCarries(m2, started, [left] + ([enter] + []), m3, NoCmd, Trace(m5, [NoCmd] + ([NoCmd] + [])));
    RunCarries(m0, enter, [started] + ([left] + ([enter] + [])), m2, Launch(0),
               Trace(m5, [NoCmd] + ([NoCmd] + ([NoCmd] + []))));
    RunCarries(m0, left, [enter] + ([started] + ([left] + ([enter] + []))), m0, NoCmd,
               Trace(m5, [Launch(0)] + ([NoCmd] + ([NoCmd] + ([NoCmd] + [])))));
    View.ConsLiterals(enter, started, left, enter);
    View.ConsLiterals(Launch(0), NoCmd, NoCmd, NoCmd);
    assert [left] + [enter, started, left, enter] == [left, enter, started, left, enter];
    assert [NoCmd] + [Launch(0), NoCmd, NoCmd, NoCmd] == [NoCmd, Launch(0), NoCmd, NoCmd, NoCmd];
  }

  /** The steps of `StopOnceStarted`, one event at a time. */
  lemma LaunchThenStart(games: seq<Game>)
    requires |games| >= 1 && !games[0].isRunning
    ensures var m0 := InitialModel(games);
      var m2 := Update(m0, Key("enter")).0;
      var m3 := Update(m2, Started(0)).0;
      && Update(m0, Key("left")) == (m0, NoCmd)
      && Update(m0, Key("enter")).1 == Launch(0)
      && Update(m2, Started(0)).1 == NoCmd
      && Update(m3, Key("left")) == (m3, NoCmd)
      && Update(m3, Key("enter")).1 == NoCmd
      && Update(m3, Key("enter")).0.games == games[0 := Lutris.Started(games[0])]
  {
    var m0 := InitialModel(games);
    LeftInFirstColumn(m0);
    assert SelectedIndex(m0) == 0;
    EnterToggles(m0, "enter");
    var m2 := Update(m0, Key("enter")).0;
    assert m2.games == games[0 := games[0].(isRunning := true)];
    RecordsHandle(m2, 0);
    var m3 := Update(m2, Started(0)).0;
    assert m3.games == games[0 := games[0].(isRunning := true, hasCommand := true)];
    LeftInFirstColumn(m3);
    EnterToggles(m3, "enter");
  }

  /** "left" in the first column changes nothing. */
  lemma LeftInFirstColumn(m: Model)
    requires Inv(m) && m.cursor.x == 0
    ensures Update(m, Key("left")) == (m, NoCmd)
  {
    assert KeyOf("left") == LeftKey;
    assert Move(m, LeftKey) == Nav(m.cursor, m.pager);
  }

  /** The `Started` event records the handle in its entry and moves nothing. */
  lemma RecordsHandle(m: Model, i: nat)
    requires Inv(m) && i < |m.games|
    ensures Update(m, Started(i)).1 == NoCmd
    ensures Update(m, Started(i)).0.games == m.games[i := Lutris.Started(m.games[i])]
    ensures Update(m, Started(i)).0.cursor == m.cursor && Update(m, Started(i)).0.pager == m.pager
  {
  }

  /** A step that does not quit prepends its command to a known trace of the rest of the run. */
  lemma RunCarries(m: Model, e: Event, rest: seq<Event>, m': Model, cmd: Cmd, t: Trace)
    requires Inv(m) && Update(m, e) == (m', cmd) && cmd != QuitCmd
    requires Run(m', rest) == t
    ensures Run(m, [e] + rest) == Trace(t.model, [cmd] + t.cmds)
  {
    RunStep(m, e, rest);
  }

  /** A step that does not quit prepends its command to the trace of the rest of the run. */
  lemma RunStep(m: Model, e: Event, rest: seq<Event>)
    requires Inv(m) && Update(m, e).1 != QuitCmd
    ensures Run(m, [e] + rest) ==
      Trace(Run(Update(m, e).0, rest).model, [Update(m, e).1] + Run(Update(m, e).0, rest).cmds)
  {
    assert ([e] + rest)[0] == e;
    assert ([e] + rest)[1..] == rest;
  }
}

=== FILE: view.dfy ===
/**
 * Revision B of the view (model.go and update.go): the model, its initial
 * value, and `Update`, the event handler of the terminal program. A Go panic
 * is the `Panicked` outcome, so `Update` is total and the lemmas below say
 * exactly when it panics.
 *
 * Go value semantics matter here. `updateGameGrid` COPIES each game into the
 * cells, and `selectedGame` points into the cells, never into the catalog.
 * The launch command is handed that pointer, and a successful `Start`
 * records the process handle in the cell it points at.
 */
module View {
  import opened Numbers
  import opened Outcomes
  import opened Paginator
  import opened Lutris
  import opened Grid
  import opened Navigation

  /** Games per page (`p.PerPage = 18`). */
  const GamesPerPage: nat := 18

  /** Cells per row (`rowCount: 3`). */
  const RowCount: nat := 3

  /** `gamesGrid`. */
  datatype GamesGrid = GamesGrid(cells: seq<seq<Game>>, cursor: Cursor, pager: Pager, rowCount: nat)

  /** The `selectedGame` pointer: nil, or the address of `cells[y][x]` in the current cells. */
  datatype Selection = Nil | CellRef(y: nat, x: nat)

  /** `model`; the launcher client is not part of this model. */
  datatype Model = Model(games: seq<Game>, grid: GamesGrid, statusBar: string, selected: Selection)

  /** The messages `Update` receives: an error, a key, the completion of a game, anything else. */
  datatype Msg = ErrMsg(err: string) | KeyMsg(key: string) | StatusMsg(code: int) | OtherMsg

  /** The command `Update` hands back: none, quit, or run the launched game. */
  datatype Cmd = NoCmd | QuitCmd | RunGameCmd(game: Game)

  datatype Step = Step(model: Model, cmd: Cmd)

  /** What the `switch` of `Update` decided: return at once, or go on to rebuild the grid. */
  datatype Switch = Return(step: Step) | FallThrough(model: Model)

  /** A Go pointer always points at something: a non-nil selection names an existing cell. */
  predicate PointerValid(m: Model) {
    m.selected.CellRef? ==> InBounds(m.grid.cells, Cursor(m.selected.x, m.selected.y))
  }

  function NavOf(m: Model): Nav {
    Nav(m.grid.cursor, m.grid.pager)
  }

  function WithNav(m: Model, n: Nav): Model {
    m.(grid := m.grid.(cursor := n.cursor, pager := n.pager))
  }

  function SetCell(m: Model, y: nat, x: nat, g: Game): Model
    requires y < |m.grid.cells| && x < |m.grid.cells[y]|
  {
    m.(grid := m.grid.(cells := m.grid.cells[y := m.grid.cells[y][x := g]]))
  }

  /** `initialModel`: 18 games a page counted over the catalog, rows of 3, cursor (0, 0), grid of page 0. */
  function InitialModel(games: seq<Game>): (m: Model)
    ensures m.games == games && m.statusBar == "" && m.selected == Nil
    ensures m.grid.pager.perPage == GamesPerPage && m.grid.pager.page == 0 && m.grid.rowCount == RowCount
    ensures Valid(m.grid.pager, |games|)
    ensures m.grid.cursor == Cursor(0, 0)
    ensures Flatten(m.grid.cells) == games[..Min(GamesPerPage, |games|)]
    ensures Shaped(m.grid.cells, RowCount)
  {
    var p := SetTotalPages(New().(perPage := GamesPerPage), |games|);
    SetupValid(GamesPerPage, |games|);
    BoundsInCatalog(p, |games|);
    var m0 := Model(games, GamesGrid([], Cursor(0, 0), p, RowCount), "", Nil);
    UpdateGameGrid(m0).value
  }

  /**
   * `updateGameGrid` (revision B): rebuild the cells for the paginator's
   * current window; only the cells change.
   */
  function UpdateGameGrid(m: Model): (r: Result<Model>)
    requires m.grid.rowCount >= 1
    ensures r.Ok? ==> r.value == m.(grid := m.grid.(cells := r.value.grid.cells))
  {
    var (start, end) := SliceBounds(m.grid.pager, |m.games|);
    var cells :- BuildCells(m.games, start, end, m.grid.rowCount);
    Ok(m.(grid := m.grid.(cells := cells)))
  }

  /** `m.selectedGame = &m.grid.cells[y][x]`: panics unless the cursor names a cell. */
  function SelectGame(m: Model): (r: Result<Model>)
    ensures r.Ok? <==> InBounds(m.grid.cells, m.grid.cursor)
    ensures r.Ok? ==> r.value == m.(selected := CellRef(m.grid.cursor.y, m.grid.cursor.x))
  {
    var row :- At(m.grid.cells, m.grid.cursor.y);
    var cell :- At(row, m.grid.cursor.x);
    Ok(m.(selected := CellRef(m.grid.cursor.y, m.grid.cursor.x)))
  }

  /** "enter" would stop the selected game, but its cell holds no process handle for `Stop` to kill. */
  predicate StopsWithoutHandle(m: Model)
    requires PointerValid(m)
  {
    match m.selected
    case Nil => false
    case CellRef(y, x) => m.grid.cells[y][x].isRunning && !m.grid.cells[y][x].hasCommand
  }

  /**
   * "enter": stop the selected game if its flag is set (then fall through),
   * else set the flag and return at once with the command that runs it.
   * A nil selection is dereferenced, and so is the nil process handle of a
   * flagged cell whose launch has not returned from `Start`.
   */
  function Enter(m: Model): (r: Result<Switch>)
    requires PointerValid(m)
    ensures r.Panicked? <==> m.selected == Nil || StopsWithoutHandle(m)
    ensures r.Panicked? ==> r.panic == NilDereference
    ensures r.Ok? ==>
      var g := m.grid.cells[m.selected.y][m.selected.x];
      && (r.value.Return? <==> !g.isRunning)
      && (r.value.Return? ==>
            r.value.step.cmd == RunGameCmd(g.(isRunning := true))
            && r.value.step.model == SetCell(m, m.selected.y, m.selected.x, g.(isRunning := true)))
      && (r.value.FallThrough? ==>
            r.value.model == SetCell(m, m.selected.y, m.selected.x, g.(isRunning := false)))
  {
    match m.selected
    case Nil => Panicked(NilDereference)
    case CellRef(y, x) =>
      var game := m.grid.cells[y][x];
      if game.isRunning then
        var stopped :- Stop(game);
        Ok(FallThrough(SetCell(m, y, x, stopped)))
      else
        var launched := game.(isRunning := true);
        Ok(Return(Step(SetCell(m, y, x, launched), RunGameCmd(launched))))
  }

  /**
   * The `switch msg := msg.(type)` of `Update`. When it falls through, the
   * catalog and the grid configuration are as they were, and a paginator
   * that was valid for the catalog still is.
   */
  function Dispatch(m: Model, msg: Msg): (r: Result<Switch>)
    requires PointerValid(m)
    ensures r.Ok? && r.value.FallThrough? ==>
      && r.value.model.games == m.games
      && r.value.model.grid.rowCount == m.grid.rowCount
      && r.value.model.grid.pager.perPage == m.grid.pager.perPage
      && (Valid(m.grid.pager, |m.games|) ==> Valid(r.value.model.grid.pager, |m.games|))
  {
    match msg
    case ErrMsg(err) => Ok(FallThrough(m.(statusBar := err)))
    case KeyMsg(name) =>
      (match KeyOf(name)
       case QuitKey => Ok(Return(Step(m, QuitCmd)))
       case DownKey => Ok(FallThrough(WithNav(m, Down(m.grid.cells, NavOf(m)))))
       case UpKey => Ok(FallThrough(WithNav(m, Up(NavOf(m)))))
       case RightKey =>
         var n :- Right(m.grid.cells, NavOf(m));
         Ok(FallThrough(WithNav(m, n)))
       case LeftKey => Ok(FallThrough(WithNav(m, Left(NavOf(m)))))
       case EnterKey => Enter(m)
       case OtherKey => Ok(FallThrough(m)))
    case StatusMsg(_) => Ok(FallThrough(m))
    case OtherMsg => Ok(FallThrough(m))
  }

  /**
   * `Update`: run the switch; unless it returned, rebuild the grid and point
   * `selectedGame` at the cursor's cell. The catalog is never written, the
   * quit keys change nothing, and an error only sets the status bar.
   */
  function Update(m: Model, msg: Msg): (r: Result<Step>)
    requires m.grid.rowCount >= 1 && PointerValid(m)
    ensures r.Ok? ==> r.value.model.games == m.games
    ensures r.Ok? ==> r.value.model.grid.rowCount == m.grid.rowCount && PointerValid(r.value.model)
    ensures msg.KeyMsg? && KeyOf(msg.key) == QuitKey ==> r == Ok(Step(m, QuitCmd))
    ensures msg.ErrMsg? && r.Ok? ==>
      && r.value.model.statusBar == msg.err
      && r.value.model.grid.cursor == m.grid.cursor
      && r.value.model.grid.pager == m.grid.pager
    ensures r.Ok? && r.value.cmd == NoCmd ==> r.value.model.selected == CellRef(r.value.model.grid.cursor.y, r.value.model.grid.cursor.x)
  {
    var sw :- Dispatch(m, msg);
    match sw
    case Return(step) => Ok(step)
    case FallThrough(m1) =>
      var m2 :- UpdateGameGrid(m1);
      var m3 :- SelectGame(m2);
      Ok(Step(m3, NoCmd))
  }

  /**
   * `runGame`, reduced to its effect: the launched game as the command leaves
   * it, and the message it feeds back to `Update`. A failed spawn records no
   * handle, reports an error and leaves the flag as it was; a successful one
   * records the handle, and the exit of the game clears the flag.
   */
  function RunGame(g: Game, outcome: LaunchOutcome): (r: (Game, Msg))
    ensures r.0.(isRunning := g.isRunning, hasCommand := g.hasCommand) == g
    ensures outcome.SpawnFailed? <==> r.1.ErrMsg?
    ensures outcome.SpawnFailed? ==> r.0 == g
    ensures outcome.ProcessExited? ==> r.0.hasCommand && !r.0.isRunning && r.1 == StatusMsg(0)
  {
    match outcome
    case SpawnFailed(cause) => (g, ErrMsg(LaunchErrorText(cause)))
    case ProcessExited => (Started(g).(isRunning := false), StatusMsg(0))
  }

  // ---------------------------------------------------------------------------
  // What the page grid is, and the invariant `Update` keeps.
  // ---------------------------------------------------------------------------

  /** The grid the paginator's current window calls for: its slice of the catalog in rows of 3. */
  function PageGrid(games: seq<Game>, p: Pager): seq<seq<Game>>
    requires Valid(p, |games|)
  {
    BoundsInCatalog(p, |games|);
    var (start, end) := SliceBounds(p, |games|);
    Chunk(games[start..end], RowCount)
  }

  /** The catalog position of the cell under cursor `c` on page `p`. */
  function CatalogIndex(p: Pager, c: Cursor): nat {
    p.page * p.perPage + c.y * RowCount + c.x
  }

  /** `g` is `h` except perhaps for the launch state: its running flag and its process handle. */
  predicate SameGame(g: Game, h: Game) {
    g.(isRunning := h.isRunning, hasCommand := h.hasCommand) == h
  }

  /** `a` holds the games of `b` cell for cell, except perhaps for their launch state. */
  predicate DiffersInFlagsOnly(a: seq<seq<Game>>, b: seq<seq<Game>>) {
    && SameShape(a, b)
    && forall i, j | 0 <= i < |a| && 0 <= j < |a[i]| :: SameGame(a[i][j], b[i][j])
  }

  /**
   * The states `Update` can reach from `InitialModel` on a non-empty catalog:
   * the source's configuration, a valid paginator, the page's grid except
   * perhaps for running flags and process handles set on the copies in the
   * cells, a cursor on a cell, and `selectedGame` nil or pointing at the
   * cursor's cell.
   */
  predicate Inv(m: Model) {
    && |m.games| >= 1
    && m.grid.rowCount == RowCount
    && m.grid.pager.perPage == GamesPerPage
    && Valid(m.grid.pager, |m.games|)
    && DiffersInFlagsOnly(m.grid.cells, PageGrid(m.games, m.grid.pager))
    && InBounds(m.grid.cells, m.grid.cursor)
    && (m.selected == Nil || m.selected == CellRef(m.grid.cursor.y, m.grid.cursor.x))
  }

  /**
   * Every index `updateGameGrid` reads is inside the catalog, because its
   * bounds come from the paginator: it never panics, and its rows flatten back
   * to exactly the window [start, end), ceil((end - start) / 3) of them.
   */
  lemma GridReadsInBounds(m: Model)
    requires m.grid.rowCount == RowCount && Valid(m.grid.pager, |m.games|)
    ensures UpdateGameGrid(m).Ok?
    ensures UpdateGameGrid(m).value.grid.cells == PageGrid(m.games, m.grid.pager)
    ensures var (start, end) := SliceBounds(m.grid.pager, |m.games|);
      && start <= end <= |m.games|
      && Flatten(UpdateGameGrid(m).value.grid.cells) == m.games[start..end]
      && |UpdateGameGrid(m).value.grid.cells| == CeilDiv(end - start, RowCount)
  {
    BoundsInCatalog(m.grid.pager, |m.games|);
  }

  /**
   * The page grid is shaped; it has a first row when the catalog is not
   * empty, and that row is full on every page but the last; a cell under the
   * cursor is the catalog entry at `CatalogIndex`.
   */
  lemma PageGridFacts(games: seq<Game>, p: Pager, c: Cursor)
    requires Valid(p, |games|) && p.perPage == GamesPerPage
    ensures Shaped(PageGrid(games, p), RowCount)
    ensures |games| >= 1 ==> |PageGrid(games, p)| >= 1
    ensures !OnLastPage(p) ==> |PageGrid(games, p)| >= 1 && |PageGrid(games, p)[0]| == RowCount
    ensures InBounds(PageGrid(games, p), c) <==>
      c.x < RowCount && c.y * RowCount + c.x < SliceBounds(p, |games|).1 - SliceBounds(p, |games|).0
    ensures InBounds(PageGrid(games, p), c) ==>
      CatalogIndex(p, c) < |games| && PageGrid(games, p)[c.y][c.x] == games[CatalogIndex(p, c)]
  {
    PageGridShape(games, p);
    PageGridCell(games, p, c);
  }

  /** The shape half of PageGridFacts. */
  lemma PageGridShape(games: seq<Game>, p: Pager)
    requires Valid(p, |games|) && p.perPage == GamesPerPage
    ensures Shaped(PageGrid(games, p), RowCount)
    ensures |games| >= 1 ==> |PageGrid(games, p)| >= 1
    ensures !OnLastPage(p) ==> |PageGrid(games, p)| >= 1 && |PageGrid(games, p)[0]| == RowCount
  {
    BoundsInCatalog(p, |games|);
    var (start, end) := SliceBounds(p, |games|);
    var window := games[start..end];
    assert PageGrid(games, p) == Chunk(window, RowCount);
    ChunkShaped(window, RowCount);
    if |window| > RowCount {
      assert Chunk(window, RowCount)[0] == window[..RowCount];
    } else if |window| >= 1 {
      assert Chunk(window, RowCount) == [window];
    }
  }

  /** The cell half of PageGridFacts: the cell under `c` is the catalog entry at `CatalogIndex`. */
  lemma PageGridCell(games: seq<Game>, p: Pager, c: Cursor)
    requires Valid(p, |games|) && p.perPage == GamesPerPage
    ensures InBounds(PageGrid(games, p), c) <==>
      c.x < RowCount && c.y * RowCount + c.x < SliceBounds(p, |games|).1 - SliceBounds(p, |games|).0
    ensures InBounds(PageGrid(games, p), c) ==>
      CatalogIndex(p, c) < |games| && PageGrid(games, p)[c.y][c.x] == games[CatalogIndex(p, c)]
  {
    BoundsInCatalog(p, |games|);
    var (start, end) := SliceBounds(p, |games|);
    var window := games[start..end];
    assert PageGrid(games, p) == Chunk(window, RowCount);
    var k := c.y * RowCount + c.x;
    ChunkCell(window, RowCount, c.y, c.x);
    if c.x < RowCount && k < |window| {
      assert CatalogIndex(p, c) == start + k;
      assert window[k] == games[start + k];
    }
  }

  lemma ShapeCarriesBounds<T>(a: seq<seq<T>>, b: seq<seq<T>>, c: Cursor)
    requires SameShape(a, b) && InBounds(a, c)
    ensures InBounds(b, c)
  {
  }

  /**
   * Under the invariant the cursor's cell holds the catalog entry at
   * `CatalogIndex`, except perhaps for its launch state: the stats pane shows
   * the catalog's data for the selected game.
   */
  lemma CursorCellIsCatalogEntry(m: Model)
    requires Inv(m)
    ensures CatalogIndex(m.grid.pager, m.grid.cursor) < |m.games|
    ensures SameGame(m.grid.cells[m.grid.cursor.y][m.grid.cursor.x], m.games[CatalogIndex(m.grid.pager, m.grid.cursor)])
  {
    var pg := PageGrid(m.games, m.grid.pager);
    ShapeCarriesBounds(m.grid.cells, pg, m.grid.cursor);
    PageGridFacts(m.games, m.grid.pager, m.grid.cursor);
  }

  /** The catalog as shown on pages 0 .. k-1, read page after page. */
  function PagesUpTo(games: seq<Game>, p: Pager, k: nat): seq<Game>
    requires p.perPage == GamesPerPage && Valid(p, |games|) && k <= p.totalPages
    decreases k
  {
    if k == 0 then []
    else PagesUpTo(games, p, k - 1) + Flatten(PageGrid(games, p.(page := k - 1)))
  }

  /** The first k pages show exactly the first min(18k, n) games, in order. */
  lemma {:induction false} PagesUpToPrefix(games: seq<Game>, p: Pager, k: nat)
    requires p.perPage == GamesPerPage && Valid(p, |games|) && k <= p.totalPages
    ensures PagesUpTo(games, p, k) == games[..Min(k * GamesPerPage, |games|)]
    decreases k
  {
    if k > 0 {
      PagesUpToPrefix(games, p, k - 1);
      var q := p.(page := k - 1);
      BoundsInCatalog(q, |games|);
      var (start, end) := SliceBounds(q, |games|);
      FlattenChunk(games[start..end], RowCount);
      if |games| >= 1 {
        MulMonotone(k - 1, p.totalPages - 1, GamesPerPage);
      }
      assert start == Min((k - 1) * GamesPerPage, |games|);
      assert end == Min(k * GamesPerPage, |games|);
      assert games[..start] + games[start..end] == games[..end];
    }
  }

  /**
   * The pages tile the catalog: reading every page's grid, page after page,
   * gives back exactly the catalog, in order, with no game missing or repeated.
   */
  lemma PagesTileCatalog(games: seq<Game>, p: Pager)
    requires p.perPage == GamesPerPage && Valid(p, |games|)
    ensures PagesUpTo(games, p, p.totalPages) == games
  {
    PagesUpToPrefix(games, p, p.totalPages);
    assert p.totalPages * p.perPage >= |games|;
    assert Min(p.totalPages * GamesPerPage, |games|) == |games|;
    assert games[..|games|] == games;
  }

  /** On a non-empty catalog the initial model satisfies the invariant. */
  lemma InitialModelInv(games: seq<Game>)
    requires |games| >= 1
    ensures Inv(InitialModel(games))
    ensures Fresh(InitialModel(games))
  {
    var m := InitialModel(games);
    var p := m.grid.pager;
    BoundsInCatalog(p, |games|);
    var (start, end) := SliceBounds(p, |games|);
    assert start == 0 && end == Min(GamesPerPage, |games|);
    ChunkUnique(m.grid.cells, games[start..end], RowCount);
    PageGridFacts(games, p, m.grid.cursor);
  }

  /** "down" on the last row reachable in this column, off the last page, onto a page whose first row is too short. */
  predicate DownOverflows(m: Model)
    requires Inv(m)
  {
    var next := NextPage(m.grid.pager);
    PageGridFacts(m.games, next, m.grid.cursor);
    && !CanMoveDown(m.grid.cells, m.grid.cursor)
    && !OnLastPage(m.grid.pager)
    && m.grid.cursor.x >= |PageGrid(m.games, next)[0]|
  }

  /** After a fall-through the grid is rebuilt: `Update` succeeds exactly when the cursor lies in the new page grid, and then keeps `Inv`. */
  lemma RebuildOutcome(m: Model, msg: Msg, m1: Model)
    requires Inv(m) && Dispatch(m, msg) == Ok(FallThrough(m1))
    ensures Update(m, msg).Ok? <==> InBounds(PageGrid(m.games, m1.grid.pager), m1.grid.cursor)
    ensures Update(m, msg).Ok? ==> Inv(Update(m, msg).value.model)
  {
    GridReadsInBounds(m1);
    var m2 := UpdateGameGrid(m1).value;
    if SelectGame(m2).Ok? {
      assert Update(m, msg) == Ok(Step(SelectGame(m2).value, NoCmd));
    }
  }

  /** Under the invariant the cells are shaped like the page grid. */
  lemma InvShaped(m: Model)
    requires Inv(m)
    ensures Shaped(m.grid.cells, RowCount)
    ensures m.grid.cursor.x < RowCount
  {
    PageGridFacts(m.games, m.grid.pager, m.grid.cursor);
    var g := PageGrid(m.games, m.grid.pager);
    forall i | 0 <= i < |m.grid.cells|
      ensures 1 <= |m.grid.cells[i]| <= RowCount && (i + 1 < |m.grid.cells| ==> |m.grid.cells[i]| == RowCount)
    {
      assert |m.grid.cells[i]| == |g[i]|;
    }
  }

  /** A fall-through that keeps the page and leaves the cursor on a cell of the old grid succeeds and keeps `Inv`. */
  lemma SamePageOutcome(m: Model, msg: Msg)
    requires Inv(m) && Dispatch(m, msg).Ok? && Dispatch(m, msg).value.FallThrough?
    requires Dispatch(m, msg).value.model.grid.pager == m.grid.pager
    requires InBounds(m.grid.cells, Dispatch(m, msg).value.model.grid.cursor)
    ensures Update(m, msg).Ok? && Inv(Update(m, msg).value.model)
  {
    var m1 := Dispatch(m, msg).value.model;
    RebuildOutcome(m, msg, m1);
    ShapeCarriesBounds(m.grid.cells, PageGrid(m.games, m1.grid.pager), m1.grid.cursor);
  }

  lemma ArrowOutcome(m: Model, msg: Msg)
    requires Inv(m) && msg.KeyMsg? && KeyOf(msg.key) in {UpKey, LeftKey, RightKey}
    ensures Update(m, msg).Ok? && Inv(Update(m, msg).value.model)
  {
    var n := NavOf(m);
    InvShaped(m);
    var m1 := Dispatch(m, msg).value.model;
    var r := Nav(m1.grid.cursor, m1.grid.pager);
    if r.pager == n.pager {
      SamePageMoveInBounds(m.grid.cells, RowCount, n, r);
      SamePageOutcome(m, msg);
    } else {
      assert KeyOf(msg.key) == UpKey && m.grid.cursor.y == 0;
      PagingKeepsValid(m.grid.pager, |m.games|);
      PageGridFacts(m.games, r.pager, r.cursor);
      assert !OnLastPage(r.pager);
      RebuildOutcome(m, msg, m1);
    }
  }

  lemma DownOutcome(m: Model, msg: Msg)
    requires Inv(m) && msg.KeyMsg? && KeyOf(msg.key) == DownKey
    ensures Update(m, msg).Ok? ==> Inv(Update(m, msg).value.model)
    ensures Update(m, msg).Panicked? <==> DownOverflows(m)
  {
    var n := NavOf(m);
    InvShaped(m);
    var m1 := Dispatch(m, msg).value.model;
    var r := Nav(m1.grid.cursor, m1.grid.pager);
    if r.pager == n.pager {
      SamePageMoveInBounds(m.grid.cells, RowCount, n, r);
      SamePageOutcome(m, msg);
    } else {
      PagingKeepsValid(m.grid.pager, |m.games|);
      PageGridFacts(m.games, r.pager, r.cursor);
      RebuildOutcome(m, msg, m1);
    }
  }

  lemma EnterOutcome(m: Model, msg: Msg)
    requires Inv(m) && msg.KeyMsg? && KeyOf(msg.key) == EnterKey
    ensures Update(m, msg).Ok? ==> Inv(Update(m, msg).value.model)
    ensures Update(m, msg).Panicked? <==> m.selected == Nil || StopsWithoutHandle(m)
    ensures Update(m, msg).Panicked? ==> Update(m, msg).panic == NilDereference
  {
    if m.selected.CellRef? && Dispatch(m, msg).Ok? {
      var sw := Dispatch(m, msg).value;
      if sw.FallThrough? {
        SamePageOutcome(m, msg);
      } else {
        var m' := sw.step.model;
        assert m' == SetCell(m, m.selected.y, m.selected.x, sw.step.cmd.game);
        assert SameShape(m'.grid.cells, m.grid.cells);
      }
    }
  }

  /**
   * `Update` never breaks the invariant, and it panics in exactly three
   * situations: "enter" while `selectedGame` is still nil (it is nil from
   * `initialModel` until the first grid rebuild); "enter" on a flagged cell
   * with no process handle (`Stop` dereferences it; only a launch whose
   * `Start` returned records one); and "down" off a page onto a next page
   * whose first row has no cell in the cursor's column (the page turn resets
   * y but keeps x).
   */
  lemma UpdateOutcome(m: Model, msg: Msg)
    requires Inv(m)
    ensures Update(m, msg).Ok? ==> Inv(Update(m, msg).value.model)
    ensures Update(m, msg).Panicked? <==>
      msg.KeyMsg? && ((KeyOf(msg.key) == EnterKey && (m.selected == Nil || StopsWithoutHandle(m)))
                      || (KeyOf(msg.key) == DownKey && DownOverflows(m)))
  {
    if msg.KeyMsg? && KeyOf(msg.key) in {UpKey, LeftKey, RightKey} {
      ArrowOutcome(m, msg);
    } else if msg.KeyMsg? && KeyOf(msg.key) == DownKey {
      DownOutcome(m, msg);
    } else if msg.KeyMsg? && KeyOf(msg.key) == EnterKey {
      EnterOutcome(m, msg);
    } else if !(msg.KeyMsg? && KeyOf(msg.key) == QuitKey) {
      SamePageOutcome(m, msg);
    }
  }

  // ---------------------------------------------------------------------------
  // The event loop, and what single events do.
  // ---------------------------------------------------------------------------

  /** The model after a run of events, and the commands handed back on the way. */
  datatype Trace = Trace(model: Model, cmds: seq<Cmd>)

  /** The bubbletea loop fed `msgs` one at a time; it stops after a quit command. */
  function Run(m: Model, msgs: seq<Msg>): Result<Trace>
    requires m.grid.rowCount >= 1 && PointerValid(m)
    decreases |msgs|
  {
    if |msgs| == 0 then Ok(Trace(m, []))
    else
      var step :- Update(m, msgs[0]);
      if step.cmd == QuitCmd then Ok(Trace(step.model, [QuitCmd]))
      else
        var rest :- Run(step.model, msgs[1..]);
        Ok(Trace(rest.model, [step.cmd] + rest.cmds))
  }

  /** Two `a` and six `b`, consed and spelled as one literal. */
  lemma TwoThenSix<T>(a: T, b: T)
    ensures [a] + ([a] + [b, b, b, b, b, b]) == [a, a, b, b, b, b, b, b]
  {
  }

  /** Right-nested single-element concatenations spelled as literals. */
  lemma ConsLiterals<T>(a: T, b: T, c: T, d: T)
    ensures [a] + [] == [a]
    ensures [a] + ([b] + []) == [a, b]
    ensures [a] + ([b] + ([c] + [])) == [a, b, c]
    ensures [a] + ([b] + ([c] + ([d] + []))) == [a, b, c, d]
  {
  }

  /** No run of events that does not panic leaves the invariant. */
  lemma {:induction false} RunKeepsInv(m: Model, msgs: seq<Msg>)
    requires Inv(m) && Run(m, msgs).Ok?
    ensures Inv(Run(m, msgs).value.model)
    decreases |msgs|
  {
    if |msgs| > 0 {
      UpdateOutcome(m, msgs[0]);
      var step := Update(m, msgs[0]).value;
      if step.cmd != QuitCmd {
        RunKeepsInv(step.model, msgs[1..]);
      }
    }
  }

  /** The grid holds exactly the page grid (no running flag set on a copy). */
  predicate Fresh(m: Model)
    requires Valid(m.grid.pager, |m.games|)
  {
    m.grid.cells == PageGrid(m.games, m.grid.pager)
  }

  /**
   * A fall-through that succeeds leaves the page grid rebuilt from the
   * catalog, the cursor and page the switch chose, and `selectedGame` on the
   * cursor's cell.
   */
  lemma FallThroughResult(m: Model, msg: Msg)
    requires Inv(m) && Dispatch(m, msg).Ok? && Dispatch(m, msg).value.FallThrough? && Update(m, msg).Ok?
    ensures var m1 := Dispatch(m, msg).value.model;
      && Valid(m1.grid.pager, |m.games|)
      && Update(m, msg).value == Step(
           m1.(grid := m1.grid.(cells := PageGrid(m.games, m1.grid.pager)),
               selected := CellRef(m1.grid.cursor.y, m1.grid.cursor.x)),
           NoCmd)
  {
    GridReadsInBounds(Dispatch(m, msg).value.model);
  }

  /**
   * "enter" on a selected game whose flag is set stops it when its cell holds
   * the handle of a started launch: the flag is cleared on the selected cell,
   * then the grid is rebuilt from the catalog and the selection recomputed;
   * no command is issued. Without the handle, `Stop` dereferences nil.
   */
  lemma EnterStopsRunning(m: Model, msg: Msg)
    requires Inv(m) && msg.KeyMsg? && KeyOf(msg.key) == EnterKey && m.selected.CellRef?
    requires m.grid.cells[m.grid.cursor.y][m.grid.cursor.x].isRunning
    ensures var c := m.grid.cursor;
      Stop(m.grid.cells[c.y][c.x]).Ok? ==>
        Dispatch(m, msg) == Ok(FallThrough(SetCell(m, c.y, c.x, Stop(m.grid.cells[c.y][c.x]).value)))
    ensures Update(m, msg).Ok? <==> m.grid.cells[m.grid.cursor.y][m.grid.cursor.x].hasCommand
    ensures Update(m, msg).Panicked? ==> Update(m, msg).panic == NilDereference
    ensures Update(m, msg).Ok? ==>
      var m' := Update(m, msg).value.model;
      && Update(m, msg).value.cmd == NoCmd
      && m'.grid.cursor == m.grid.cursor && m'.grid.pager == m.grid.pager
      && Fresh(m')
      && m'.selected == CellRef(m.grid.cursor.y, m.grid.cursor.x)
  {
    UpdateOutcome(m, msg);
    if Update(m, msg).Ok? {
      FallThroughResult(m, msg);
    }
  }

  /**
   * "enter" on a selected game whose flag is clear sets the flag on the
   * selected cell and returns at once with the command that runs that game:
   * the grid is not rebuilt and nothing else changes.
   */
  lemma EnterLaunches(m: Model, msg: Msg)
    requires Inv(m) && msg.KeyMsg? && KeyOf(msg.key) == EnterKey && m.selected.CellRef?
    requires !m.grid.cells[m.grid.cursor.y][m.grid.cursor.x].isRunning
    ensures var c := m.grid.cursor;
      var launched := m.grid.cells[c.y][c.x].(isRunning := true);
      Update(m, msg) == Ok(Step(SetCell(m, c.y, c.x, launched), RunGameCmd(launched)))
  {
  }

  /**
   * The life of a launch as the command sees it: the game it runs carries the
   * flag; a failed spawn reports the launcher's error text and leaves the flag
   * set; only the exit of the game clears it, leaving the game as stopping it
   * after its `Start` would, and then the completion message is delivered.
   */
  lemma LaunchLifecycle(m: Model, msg: Msg, cause: string)
    requires Inv(m) && msg.KeyMsg? && KeyOf(msg.key) == EnterKey && m.selected.CellRef?
    requires !m.grid.cells[m.grid.cursor.y][m.grid.cursor.x].isRunning
    ensures Update(m, msg).Ok? && Update(m, msg).value.cmd.RunGameCmd?
    ensures var g := Update(m, msg).value.cmd.game;
      && g.isRunning
      && RunGame(g, SpawnFailed(cause)) == (g, ErrMsg("lutris command failed, error: '" + cause + "'"))
      && !RunGame(g, ProcessExited).0.isRunning
      && Stop(Started(g)) == Ok(RunGame(g, ProcessExited).0)
      && RunGame(g, ProcessExited).1 == StatusMsg(0)
  {
    EnterLaunches(m, msg);
  }

  /**
   * Under the invariant, a row below that is too short for the cursor's
   * column only happens on the last page (only the last page has a short row),
   * so there "down" changes nothing.
   */
  lemma ShortRowBelowOnLastPage(m: Model)
    requires Inv(m)
    requires m.grid.cursor.y + 1 < |m.grid.cells| && m.grid.cursor.x >= |m.grid.cells[m.grid.cursor.y + 1]|
    ensures OnLastPage(m.grid.pager)
    ensures Dispatch(m, KeyMsg("down")) == Ok(FallThrough(m))
  {
    InvShaped(m);
    var p := m.grid.pager;
    var g := PageGrid(m.games, p);
    if !OnLastPage(p) {
      PageGridFacts(m.games, p, Cursor(m.grid.cursor.x, m.grid.cursor.y + 1));
      BoundsInCatalog(p, |m.games|);
      ChunkCount(m.games[SliceBounds(p, |m.games|).0..SliceBounds(p, |m.games|).1], RowCount);
      assert false;
    }
  }

  /**
   * "down" where the row below exists but has no cell in the cursor's column
   * does not stay put: it falls through to the page turn, with y = 0, x kept.
   */
  lemma DownFallsThrough(m: Model)
    requires m.grid.rowCount >= 1 && PointerValid(m)
    requires m.grid.cursor.y + 1 < |m.grid.cells| && m.grid.cursor.x >= |m.grid.cells[m.grid.cursor.y + 1]|
    requires !OnLastPage(m.grid.pager)
    ensures Dispatch(m, KeyMsg("down")) ==
      Ok(FallThrough(WithNav(m, Nav(Cursor(m.grid.cursor.x, 0), m.grid.pager.(page := m.grid.pager.page + 1)))))
  {
  }

  // ---------------------------------------------------------------------------
  // Runs that show the defects of the source (see the README's findings).
  // ---------------------------------------------------------------------------

  /** A successful move on a page: the page grid for the new page, the cursor on the new cell, selected. */
  lemma MoveStep(m: Model, name: string, n: Nav)
    requires Inv(m) && KeyOf(name) in {UpKey, DownKey, LeftKey, RightKey}
    requires Dispatch(m, KeyMsg(name)) == Ok(FallThrough(WithNav(m, n)))
    requires n.pager.perPage == GamesPerPage && Valid(n.pager, |m.games|)
    requires InBounds(PageGrid(m.games, n.pager), n.cursor)
    ensures Update(m, KeyMsg(name)) == Ok(Step(
      Model(m.games, GamesGrid(PageGrid(m.games, n.pager), n.cursor, n.pager, RowCount),
            m.statusBar, CellRef(n.cursor.y, n.cursor.x)),
      NoCmd))
  {
    RebuildOutcome(m, KeyMsg(name), WithNav(m, n));
    FallThroughResult(m, KeyMsg(name));
  }

  /**
   * The first "enter" after start-up dereferences the nil `selectedGame`:
   * `initialModel` never sets it, and only a grid rebuild in `Update` does.
   */
  lemma FirstEnterPanics(games: seq<Game>)
    ensures Run(InitialModel(games), [KeyMsg("enter")]) == Panicked(NilDereference)
  {
    var m0, enter := InitialModel(games), KeyMsg("enter");
    assert KeyOf("enter") == EnterKey;
    assert Dispatch(m0, enter) == Panicked(NilDereference);
    assert Update(m0, enter) == Panicked(NilDereference);
    assert [enter][0] == enter;
  }

  /**
   * `selectedGame` is set, to the cursor's cell, by the first message that
   * reaches the end of `Update`: a message that is not a key (such as the
   * terminal size report the runtime sends at start-up) leaves the cursor on
   * (0, 0), so "enter" after it launches the first game instead of panicking.
   */
  lemma OtherMessageThenEnterLaunches(games: seq<Game>)
    requires |games| >= 1 && !games[0].isRunning
    ensures var launched := games[0].(isRunning := true);
      Run(InitialModel(games), [OtherMsg, KeyMsg("enter")])
        == Ok(Trace(SetCell(FirstSelected(games), 0, 0, launched), [NoCmd, RunGameCmd(launched)]))
  {
    var m0 := InitialModel(games);
    InitialModelInv(games);
    UpdateOutcome(m0, OtherMsg);
    FallThroughResult(m0, OtherMsg);
    assert Dispatch(m0, OtherMsg) == Ok(FallThrough(m0));
    assert m0.grid.cells == PageGrid(games, m0.grid.pager);
    assert Update(m0, OtherMsg) == Ok(Step(FirstSelected(games), NoCmd));
    EnterLaunchesFirst(games);
    var launched := games[0].(isRunning := true);
    var m1, m2 := FirstSelected(games), SetCell(FirstSelected(games), 0, 0, launched);
    var enter := KeyMsg("enter");
    OkCarriesBack(m1, enter, [], m2, RunGameCmd(launched), Trace(m2, []));
    OkCarriesBack(m0, OtherMsg, [enter] + [], m1, NoCmd, Trace(m2, [RunGameCmd(launched)] + []));
    ConsLiterals(OtherMsg, enter, enter, enter);
    ConsLiterals(NoCmd, RunGameCmd(launched), NoCmd, NoCmd);
  }

  /**
   * On an empty catalog revision B starts with no cells at all, and every
   * message but the quit keys panics: "enter" on the nil `selectedGame`, any
   * other message on row 0 of the empty grid (taking the address of
   * cells[0][0], or reading the row's length for "right").
   */
  lemma EmptyCatalogPanics(msg: Msg)
    ensures InitialModel([]).grid.cells == []
    ensures msg.KeyMsg? && KeyOf(msg.key) == QuitKey ==> Update(InitialModel([]), msg).Ok?
    ensures msg.KeyMsg? && KeyOf(msg.key) == EnterKey ==> Update(InitialModel([]), msg) == Panicked(NilDereference)
    ensures !(msg.KeyMsg? && KeyOf(msg.key) in {QuitKey, EnterKey}) ==>
      Update(InitialModel([]), msg) == Panicked(IndexOutOfRange(0, 0))
  {
  }

  /** One step of the loop: a successful, non-quit event, then the rest of the run. */
  lemma RunCons(m: Model, msg: Msg, rest: seq<Msg>)
    requires m.grid.rowCount >= 1 && PointerValid(m)
    requires Update(m, msg).Ok? && Update(m, msg).value.cmd != QuitCmd
    ensures var step := Update(m, msg).value;
      Run(m, [msg] + rest) ==
        match Run(step.model, rest)
        case Ok(t) => Ok(Trace(t.model, [step.cmd] + t.cmds))
        case Panicked(p) => Panicked(p)
  {
    assert ([msg] + rest)[0] == msg;
    assert ([msg] + rest)[1..] == rest;
  }

  /** With 19 games, page 0 is six full rows. */
  lemma Page0Full(games: seq<Game>)
    requires |games| == 19
    ensures Valid(Pager(0, 18, 2), 19) && Valid(Pager(1, 18, 2), 19)
    ensures |PageGrid(games, Pager(0, 18, 2))| == 6
    ensures forall y: nat, x: nat | y < 6 && x < 3 :: InBounds(PageGrid(games, Pager(0, 18, 2)), Cursor(x, y))
  {
    var p0 := Pager(0, 18, 2);
    BoundsInCatalog(p0, 19);
    ChunkCount(games[0..18], RowCount);
    forall y: nat, x: nat | y < 6 && x < 3
      ensures InBounds(PageGrid(games, p0), Cursor(x, y))
    {
      PageGridFacts(games, p0, Cursor(x, y));
    }
  }

  /** With 19 games: page 0 of the catalog with the cursor on (x, y), freshly selected. */
  function Page0At(games: seq<Game>, x: nat, y: nat): (m: Model)
    requires |games| == 19 && x < 3 && y < 6
    ensures Inv(m)
  {
    Page0Full(games);
    PageGridFacts(games, Pager(0, 18, 2), Cursor(x, y));
    Model(games, GamesGrid(PageGrid(games, Pager(0, 18, 2)), Cursor(x, y), Pager(0, 18, 2), RowCount), "", CellRef(y, x))
  }

  /** A "down" or "right" between cells of page 0 of 19 games. */
  lemma Page0Step(games: seq<Game>, name: string, x: nat, y: nat, x': nat, y': nat)
    requires |games| == 19 && x < 3 && y < 6 && x' < 3 && y' < 6
    requires KeyOf(name) in {DownKey, RightKey}
    requires Dispatch(Page0At(games, x, y), KeyMsg(name)) ==
      Ok(FallThrough(WithNav(Page0At(games, x, y), Nav(Cursor(x', y'), Pager(0, 18, 2)))))
    ensures Update(Page0At(games, x, y), KeyMsg(name)) == Ok(Step(Page0At(games, x', y'), NoCmd))
  {
    MoveStep(Page0At(games, x, y), name, Nav(Cursor(x', y'), Pager(0, 18, 2)));
  }

  /** The sixth "down": no row 6 and page 0 is not the last, so page 1 with x = 2 kept; cells[0][2] does not exist. */
  lemma Page0LastDown(games: seq<Game>)
    requires |games| == 19
    ensures Update(Page0At(games, 2, 5), KeyMsg("down")) == Panicked(IndexOutOfRange(2, 1))
  {
    Page0Full(games);
    var m7 := Page0At(games, 2, 5);
    var m8 := WithNav(m7, Nav(Cursor(2, 0), Pager(1, 18, 2)));
    assert Dispatch(m7, KeyMsg("down")) == Ok(FallThrough(m8));
    GridReadsInBounds(m8);
    assert PageGrid(games, Pager(1, 18, 2)) == [games[18..19]];
  }

  /**
   * With 19 games, page 0 is six full rows and page 1 is the single game 19.
   * "right", "right" and five "down" put the cursor on (x 2, row 5); the sixth
   * "down" turns the page with y = 0 but keeps x = 2, and selecting
   * cells[0][2] of the one-cell page is an index-out-of-range panic.
   */
  lemma ShortLastPagePanics(games: seq<Game>)
    requires |games| == 19
    ensures Run(InitialModel(games),
                [KeyMsg("right"), KeyMsg("right"),
                 KeyMsg("down"), KeyMsg("down"), KeyMsg("down"),
                 KeyMsg("down"), KeyMsg("down"), KeyMsg("down")])
            == Panicked(IndexOutOfRange(2, 1))
  {
    var m0 := InitialModel(games);
    var right, down := KeyMsg("right"), KeyMsg("down");
    var downs := [down, down, down, down, down, down];
    DownsFromTopPanic(games);
    RightFromStart(games);
    var panic := Panicked(IndexOutOfRange(2, 1));
    assert Run(Page0At(games, 2, 0), downs) == panic;
    PanicCarriesBack(Page0At(games, 1, 0), right, downs, Page0At(games, 2, 0));
    assert Run(Page0At(games, 1, 0), [right] + downs) == panic;
    PanicCarriesBack(m0, right, [right] + downs, Page0At(games, 1, 0));
    assert Run(m0, [right] + ([right] + downs)) == panic;
    TwoThenSix(right, down);
  }

  /** On 19 games, the first "right" selects (x 1, row 0) of page 0, and the second (x 2, row 0). */
  lemma RightFromStart(games: seq<Game>)
    requires |games| == 19
    ensures Update(InitialModel(games), KeyMsg("right")) == Ok(Step(Page0At(games, 1, 0), NoCmd))
    ensures Update(Page0At(games, 1, 0), KeyMsg("right")) == Ok(Step(Page0At(games, 2, 0), NoCmd))
  {
    InitialModelInv(games);
    Page0Full(games);
    Page0Step(games, "right", 1, 0, 2, 0);
    MoveStep(InitialModel(games), "right", Nav(Cursor(1, 0), Pager(0, 18, 2)));
  }

  /** From (x 2, row 0) of page 0 of 19 games, six "down" panic. */
  lemma DownsFromTopPanic(games: seq<Game>)
    requires |games| == 19
    ensures Run(Page0At(games, 2, 0), [KeyMsg("down"), KeyMsg("down"), KeyMsg("down"),
                                       KeyMsg("down"), KeyMsg("down"), KeyMsg("down")])
            == Panicked(IndexOutOfRange(2, 1))
  {
    var down := KeyMsg("down");
    Page0LastDown(games);
    assert [down][0] == down && [down][1..] == [];
    assert Run(Page0At(games, 2, 5), [down]) == Panicked(IndexOutOfRange(2, 1));
    Page0Step(games, "down", 2, 4, 2, 5);
    PanicCarriesBack(Page0At(games, 2, 4), down, [down], Page0At(games, 2, 5));
    Page0Step(games, "down", 2, 3, 2, 4);
    PanicCarriesBack(Page0At(games, 2, 3), down, [down, down], Page0At(games, 2, 4));
    Page0Step(games, "down", 2, 2, 2, 3);
    PanicCarriesBack(Page0At(games, 2, 2), down, [down, down, down], Page0At(games, 2, 3));
    Page0Step(games, "down", 2, 1, 2, 2);
    PanicCarriesBack(Page0At(games, 2, 1), down, [down, down, down, down], Page0At(games, 2, 2));
    Page0Step(games, "down", 2, 0, 2, 1);
    PanicCarriesBack(Page0At(games, 2, 0), down, [down, down, down, down, down], Page0At(games, 2, 1));
  }

  /** A step that returns no command passes a panic of the rest of the run back to the whole run. */
  lemma PanicCarriesBack(m: Model, msg: Msg, rest: seq<Msg>, m': Model)
    requires m.grid.rowCount >= 1 && PointerValid(m)
    requires Update(m, msg) == Ok(Step(m', NoCmd))
    requires Run(m', rest).Panicked?
    ensures Run(m, [msg] + rest) == Run(m', rest)
  {
    RunCons(m, msg, rest);
  }

  /** On a catalog whose first game is not flagged, after start-up and one "left". */
  function FirstSelected(games: seq<Game>): (m: Model)
    requires |games| >= 1
    ensures Inv(m)
  {
    InitialModelInv(games);
    PageGridFacts(games, InitialModel(games).grid.pager, Cursor(0, 0));
    InitialModel(games).(selected := CellRef(0, 0))
  }

  lemma LeftSelectsFirst(games: seq<Game>)
    requires |games| >= 1
    ensures Update(InitialModel(games), KeyMsg("left")) == Ok(Step(FirstSelected(games), NoCmd))
  {
    InitialModelInv(games);
    var m0 := InitialModel(games);
    PageGridFacts(games, m0.grid.pager, Cursor(0, 0));
    MoveStep(m0, "left", Nav(Cursor(0, 0), m0.grid.pager));
  }

  lemma EnterLaunchesFirst(games: seq<Game>)
    requires |games| >= 1 && !games[0].isRunning
    ensures var m1 := FirstSelected(games);
      var launched := games[0].(isRunning := true);
      && m1.grid.cells[0][0] == games[0]
      && Update(m1, KeyMsg("enter")) == Ok(Step(SetCell(m1, 0, 0, launched), RunGameCmd(launched)))
      && Inv(SetCell(m1, 0, 0, launched))
  {
    var m1 := FirstSelected(games);
    PageGridFacts(games, m1.grid.pager, Cursor(0, 0));
    EnterLaunches(m1, KeyMsg("enter"));
    EnterOutcome(m1, KeyMsg("enter"));
  }

  lemma LeftForgetsLaunch(games: seq<Game>)
    requires |games| >= 1 && !games[0].isRunning
    ensures var m1 := FirstSelected(games);
      var m2 := SetCell(m1, 0, 0, games[0].(isRunning := true));
      Inv(m2) && Update(m2, KeyMsg("left")) == Ok(Step(m1, NoCmd))
  {
    EnterLaunchesFirst(games);
    var m1 := FirstSelected(games);
    var m2 := SetCell(m1, 0, 0, games[0].(isRunning := true));
    InitialModelInv(games);
    FallThroughResult(m2, KeyMsg("left"));
    UpdateOutcome(m2, KeyMsg("left"));
  }

  /**
   * The running flag is set on a COPY of the game in the grid, never in the
   * catalog, so the next rebuild forgets it. From start-up on a catalog whose
   * first game is not flagged: "left" (a no-op that selects the first cell),
   * "enter" launches it, "left" rebuilds the grid and the model is back where
   * it was before the launch, and "enter" launches the same game a second time
   * while the first is still running.
   */
  lemma LaunchForgotten(games: seq<Game>)
    requires |games| >= 1 && !games[0].isRunning
    ensures var launched := games[0].(isRunning := true);
      var left, enter := KeyMsg("left"), KeyMsg("enter");
      && Run(InitialModel(games), [left, enter, left, enter]).Ok?
      && Run(InitialModel(games), [left, enter, left, enter]).value.cmds
         == [NoCmd, RunGameCmd(launched), NoCmd, RunGameCmd(launched)]
      && Run(InitialModel(games), [left, enter, left]).Ok?
      && Run(InitialModel(games), [left]).Ok?
      && Run(InitialModel(games), [left, enter, left]).value.model == Run(InitialModel(games), [left]).value.model
  {
    var m0, m1 := InitialModel(games), FirstSelected(games);
    var launched := games[0].(isRunning := true);
    var run := RunGameCmd(launched);
    var m2 := SetCell(m1, 0, 0, launched);
    var left, enter := KeyMsg("left"), KeyMsg("enter");
    LeftSelectsFirst(games);
    EnterLaunchesFirst(games);
    LeftForgetsLaunch(games);
    // left, enter, left, enter
    OkCarriesBack(m1, enter, [], m2, run, Trace(m2, []));
    OkCarriesBack(m2, left, [enter] + [], m1, NoCmd, Trace(m2, [run] + []));
    OkCarriesBack(m1, enter, [left] + ([enter] + []), m2, run, Trace(m2, [NoCmd] + ([run] + [])));
    OkCarriesBack(m0, left, [enter] + ([left] + ([enter] + [])), m1, NoCmd,
                  Trace(m2, [run] + ([NoCmd] + ([run] + []))));
    // left, enter, left
    OkCarriesBack(m2, left, [], m1, NoCmd, Trace(m1, []));
    OkCarriesBack(m1, enter, [left] + [], m2, run, Trace(m1, [NoCmd] + []));
    OkCarriesBack(m0, left, [enter] + ([left] + []), m1, NoCmd, Trace(m1, [run] + ([NoCmd] + [])));
    // left
    OkCarriesBack(m0, left, [], m1, NoCmd, Trace(m1, []));
    ConsLiterals(left, enter, left, enter);
    ConsLiterals(NoCmd, run, NoCmd, run);
  }

  /**
   * The launch goroutine's `Start` returning: `runGame` was handed the
   * pointer `selectedGame`, and the process handle is written into the cell
   * it points at. Applied to the current grid, this stands for a `Start` that
   * returns before the next grid rebuild, which would leave that cell behind.
   */
  function StartReturned(m: Model): (r: Model)
    requires Inv(m) && m.selected.CellRef?
    ensures Inv(r) && r.selected == m.selected && SameShape(r.grid.cells, m.grid.cells)
    ensures var (y, x) := (m.selected.y, m.selected.x);
      && r.grid.cells[y][x].hasCommand
      && r.grid.cells[y][x].(hasCommand := m.grid.cells[y][x].hasCommand) == m.grid.cells[y][x]
      && r == SetCell(m, y, x, r.grid.cells[y][x])
  {
    var (y, x) := (m.selected.y, m.selected.x);
    SetCell(m, y, x, Started(m.grid.cells[y][x]))
  }

  /**
   * "enter" on a game whose launch has not returned from `Start`
   * dereferences the nil process handle: from start-up on a catalog whose
   * first game is neither flagged nor started, "left", "enter", "enter"
   * panics.
   */
  lemma SecondEnterPanics(games: seq<Game>)
    requires |games| >= 1 && !games[0].isRunning && !games[0].hasCommand
    ensures Run(InitialModel(games), [KeyMsg("left"), KeyMsg("enter"), KeyMsg("enter")]) == Panicked(NilDereference)
  {
    var m0, m1 := InitialModel(games), FirstSelected(games);
    var m2 := SetCell(m1, 0, 0, games[0].(isRunning := true));
    var left, enter := KeyMsg("left"), KeyMsg("enter");
    LeftSelectsFirst(games);
    EnterLaunchesFirst(games);
    LaunchedCellPanics(games);
    RunCons(m1, enter, [enter] + []);
    PanicCarriesBack(m0, left, [enter] + ([enter] + []), m1);
    ConsLiterals(left, enter, enter, enter);
  }

  /** The first cell, flagged by "enter" and holding no handle, panics on the next "enter". */
  lemma LaunchedCellPanics(games: seq<Game>)
    requires |games| >= 1 && !games[0].hasCommand
    ensures var m2 := SetCell(FirstSelected(games), 0, 0, games[0].(isRunning := true));
      Run(m2, [KeyMsg("enter")] + []) == Panicked(NilDereference)
  {
    var m2 := SetCell(FirstSelected(games), 0, 0, games[0].(isRunning := true));
    var enter := KeyMsg("enter");
    assert m2.selected == CellRef(0, 0) && m2.grid.cells[0][0] == games[0].(isRunning := true);
    assert Dispatch(m2, enter) == Panicked(NilDereference);
    ConsLiterals(enter, enter, enter, enter);
  }

  /**
   * Once `Start` has returned, the second "enter" stops the game and
   * rebuilds the grid from the catalog, which never held the flag: the model
   * is the one before the launch, and no command is issued.
   */
  lemma StopAfterStart(games: seq<Game>)
    requires |games| >= 1 && !games[0].isRunning
    ensures var m2 := SetCell(FirstSelected(games), 0, 0, games[0].(isRunning := true));
      && Inv(m2) && m2.selected.CellRef?
      && Update(StartReturned(m2), KeyMsg("enter")) == Ok(Step(FirstSelected(games), NoCmd))
  {
    var m1 := FirstSelected(games);
    var m2 := SetCell(m1, 0, 0, games[0].(isRunning := true));
    EnterLaunchesFirst(games);
    var m3 := StartReturned(m2);
    EnterStopsRunning(m3, KeyMsg("enter"));
    FallThroughResult(m3, KeyMsg("enter"));
    InitialModelInv(games);
  }

  /** A step that returns a command other than quit prepends it to the trace of the rest of the run. */
  lemma OkCarriesBack(m: Model, msg: Msg, rest: seq<Msg>, m': Model, cmd: Cmd, t: Trace)
    requires m.grid.rowCount >= 1 && PointerValid(m)
    requires Update(m, msg) == Ok(Step(m', cmd)) && cmd != QuitCmd
    requires Run(m', rest) == Ok(t)
    ensures Run(m, [msg] + rest) == Ok(Trace(t.model, [cmd] + t.cmds))
  {
    RunCons(m, msg, rest);
  }
}

=== FILE: view_a.dfy ===
/**
 * Revision A of the view (view.go). It differs from revision B only in
 * where the grid builder takes its bounds: the grid stores `start`/`end`,
 * `initialModel` sets them to [0, 18) without looking at the catalog, and
 * `Update` copies the paginator's slice bounds into them before rebuilding.
 * The key handling is the same switch as revision B's.
 */
module ViewA {
  import opened Numbers
  import opened Outcomes
  import opened Paginator
  import opened Lutris
  import opened Grid
  import opened Navigation
  import View

  /** Revision A's model: revision B's fields plus the grid's stored window. */
  datatype ModelA = ModelA(base: View.Model, start: nat, end: nat)

  datatype StepA = StepA(model: ModelA, cmd: View.Cmd)

  /** `updateGameGrid` (revision A): rebuild the cells from the stored window. */
  function UpdateGameGrid(m: ModelA): (r: Result<ModelA>)
    requires m.base.grid.rowCount >= 1
    ensures r.Ok? <==> (m.start >= m.end || m.end <= |m.base.games|)
    ensures r.Ok? ==> r.value.start == m.start && r.value.end == m.end
    ensures r.Ok? ==> r.value.base == m.base.(grid := m.base.grid.(cells := r.value.base.grid.cells))
    ensures r.Ok? ==> Flatten(r.value.base.grid.cells) == Window(m.base.games, m.start, m.end)
  {
    var cells :- BuildCells(m.base.games, m.start, m.end, m.base.grid.rowCount);
    Ok(m.(base := m.base.(grid := m.base.grid.(cells := cells))))
  }

  /**
   * `initialModel` (revision A): the same paginator and row width as revision
   * B, but the window is [0, 18) whatever the catalog size, and the grid is
   * built from it at once: this panics on a catalog of fewer than 18 games
   * (at index |games|) and otherwise yields revision B's initial model.
   */
  function InitialModel(games: seq<Game>): (r: Result<ModelA>)
    ensures r.Ok? <==> |games| >= View.GamesPerPage
    ensures r.Panicked? ==> r.panic == IndexOutOfRange(|games|, |games|)
    ensures r.Ok? ==> r.value.start == 0 && r.value.end == View.GamesPerPage
  {
    var p := SetTotalPages(New().(perPage := View.GamesPerPage), |games|);
    var base := View.Model(games, View.GamesGrid([], Cursor(0, 0), p, View.RowCount), "", View.Nil);
    UpdateGameGrid(ModelA(base, 0, View.GamesPerPage))
  }

  /**
   * `Update` (revision A): the same switch; unless it returned, store the
   * paginator's slice bounds, rebuild from them and select the cursor's cell.
   */
  function Update(m: ModelA, msg: View.Msg): (r: Result<StepA>)
    requires m.base.grid.rowCount >= 1 && View.PointerValid(m.base)
  {
    var sw :- View.Dispatch(m.base, msg);
    match sw
    case Return(step) => Ok(StepA(m.(base := step.model), step.cmd))
    case FallThrough(b1) =>
      var (start, end) := SliceBounds(b1.grid.pager, |b1.games|);
      var m2 :- UpdateGameGrid(ModelA(b1, start, end));
      var b3 :- View.SelectGame(m2.base);
      Ok(StepA(m2.(base := b3), View.NoCmd))
  }

  /**
   * On a catalog of at least one page, revision A starts exactly where
   * revision B does; on a smaller one it panics before the first frame.
   */
  lemma InitialAgrees(games: seq<Game>)
    ensures |games| >= View.GamesPerPage ==>
      InitialModel(games).Ok? && InitialModel(games).value.base == View.InitialModel(games)
    ensures |games| < View.GamesPerPage ==> InitialModel(games).Panicked?
  {
    if |games| >= View.GamesPerPage {
      var a := InitialModel(games).value.base;
      var b := View.InitialModel(games);
      assert games[0..View.GamesPerPage] == games[..Min(View.GamesPerPage, |games|)];
      ChunkUnique(a.grid.cells, games[..View.GamesPerPage], View.RowCount);
      ChunkUnique(b.grid.cells, games[..View.GamesPerPage], View.RowCount);
    }
  }

  /**
   * From the same state, revision A's `Update` does what revision B's does:
   * it panics exactly when B's does, issues the same command and reaches the
   * same state; when it rebuilt the grid, the stored window is the
   * paginator's slice bounds.
   */
  lemma UpdateAgrees(m: ModelA, msg: View.Msg)
    requires m.base.grid.rowCount >= 1 && View.PointerValid(m.base)
    ensures Update(m, msg).Ok? <==> View.Update(m.base, msg).Ok?
    ensures Update(m, msg).Ok? ==>
      && Update(m, msg).value.model.base == View.Update(m.base, msg).value.model
      && Update(m, msg).value.cmd == View.Update(m.base, msg).value.cmd
    ensures Update(m, msg).Ok? && Update(m, msg).value.cmd == View.NoCmd ==>
      var b := Update(m, msg).value.model.base;
      (Update(m, msg).value.model.start, Update(m, msg).value.model.end) == SliceBounds(b.grid.pager, |b.games|)
  {
  }
}
